=== FILE: README.md ===
# Field research app: specimen identity, validation, form and browser

This project models the record-keeping core of a field data-collection web
application. A collector fills in a form describing a specimen (identity,
location, environment, measurements, notes). The form validates the record and
writes it to an offline key/value store, keyed by the record's `id`. A browser
screen lists the stored records newest first, lets the user search them, delete
one and export the list as JSON. A separate page lets a user choose a new
password before a remote update is requested.

The model is functional: immutable datatypes for the specimen record, the form
and list states and the validation results, and pure functions over strings and
sequences. The store is an abstract `map<string, Specimen>`. Clocks, uuids, the
browser position, confirmation dialogs and the remote password update are
parameters.

Modules, one per file:

- `SpecimenTypes` (`specimen_types.dfy`): the record types of `src/types/specimen.ts`.
  Each closed string union is a datatype with a name/parse round trip. It also
  holds `Value`, the dynamically typed values the generic validators receive.
- `Strings` (`strings.dfy`): the JavaScript string operations the code relies on.
  These are `trim` with the ECMAScript whitespace set, ASCII `toLowerCase`/`toUpperCase`,
  `includes`, `padStart`, `join`, `String(n)`, global removal of a character,
  and single replacement.
- `IdGenerator` (`id_generator.dfy`): the date-stamped and the sequential
  identifier formats, and the identifier validator (written as a parser).
- `Validators` (`validators.dfy`): coordinate, unit and rule-based validation,
  and the auto-correction of entered data.
- `SpecimenStore` (`specimen_store.dfy`): add, delete and list on the keyed store.
- `SpecimenForm` (`specimen_form.dfy`): the new-specimen form as a state machine.
- `SpecimenList` (`specimen_list.dfy`): sort, search, delete and export in the browser.
- `ResetPassword` (`reset_password.dfy`): the two ordered checks and the outcome handling of the reset page.

Dates are integers (epoch milliseconds). The ISO text of the clock reading is a
separate parameter, and nothing relates it to the integer: the two are
independent inputs. Numbers are `real`.

## Model

| member | source | states |
|---|---|---|
| SpecimenTypes.ParseSyncStatus | src/types/specimen.ts:43 | a status name parses exactly when it is one of pending, synced, error, and to the status with that name |
| SpecimenTypes.SyncStatusRoundTrip | src/types/specimen.ts:43 | every sync status's name parses back to that status |
| SpecimenTypes.ParseCustodyAction | src/types/specimen.ts:50 | a custody action name parses exactly when it is one of the five actions |
| SpecimenTypes.CustodyActionRoundTrip | src/types/specimen.ts:50 | every custody action's name parses back to it |
| SpecimenTypes.ParseRuleType | src/types/specimen.ts:58 | a rule type name parses exactly when it is required, range, pattern or custom |
| SpecimenTypes.RuleTypeRoundTrip | src/types/specimen.ts:58 | every rule type's name parses back to it |
| SpecimenTypes.ParseCheckpointStatus | src/types/specimen.ts:70 | a checkpoint status name parses exactly when it is ok, alert or emergency |
| SpecimenTypes.CheckpointStatusRoundTrip | src/types/specimen.ts:70 | every checkpoint status's name parses back to it |
| Strings.Trim | src/utils/validators.ts:89 | the result has no whitespace at either end and sits inside the input with only whitespace around it |
| Strings.TrimEmptyIffBlank | src/features/specimens/SpecimenForm.tsx:55 | trimming gives the empty string exactly when the input is whitespace only |
| Strings.TrimIdempotent | src/utils/validators.ts:89 | trimming twice gives what trimming once gives |
| Strings.ToLower | src/features/specimens/SpecimenList.tsx:30 | the length is kept; each uppercase ASCII letter becomes the same letter in lowercase, every other character is kept, and no uppercase ASCII letter remains |
| Strings.ToUpper | src/utils/idGenerator.ts:10 | the length is kept; each lowercase ASCII letter becomes the same letter in uppercase, every other character is kept, and no lowercase ASCII letter remains |
| Strings.LowerOfUpper | src/features/specimens/SpecimenList.tsx:30 | for ASCII text, lower-casing after upper-casing is lower-casing |
| Strings.RemoveAll | src/utils/idGenerator.ts:9 | the removed character no longer occurs |
| Strings.RemoveAllAppend | src/utils/idGenerator.ts:9 | removal distributes over concatenation |
| Strings.RemoveAllAbsent | src/utils/idGenerator.ts:9 | removal of a character that does not occur changes nothing |
| Strings.ReplaceFirst | src/utils/validators.ts:95 | the length is kept, and a string without the character is unchanged |
| Strings.ReplaceFirstSplits | src/utils/validators.ts:95 | only the first occurrence of the character is replaced; what precedes and follows it is kept |
| Strings.Join | src/utils/validators.ts:27 | `join` with a separator; JoinContains and JoinedPartsOccur state what it contains |
| Strings.JoinContains | src/utils/validators.ts:27 | every part occurs in the joined string |
| Strings.Contains | src/features/specimens/SpecimenList.tsx:30 | `includes`: some offset where the needle occurs; ContainsEmpty, ContainsAfter and ContainsBefore state its laws |
| Strings.ContainsEmpty | src/features/specimens/SpecimenList.tsx:30 | every string includes the empty string |
| Strings.Take | src/utils/idGenerator.ts:9 | `slice(0, n)`: a prefix of the input, exactly n long when the input is that long, and the whole input when it is shorter |
| Strings.IntToString | src/utils/idGenerator.ts:21 | `String(n)` for an integer: digits denoting n when n is not negative, and a minus sign followed by digits denoting -n when it is; no leading zero except in "0" itself |
| Strings.NatToString | src/utils/idGenerator.ts:21 | the decimal rendering is a non-empty digit string whose value is the number, with no leading zero except in "0" itself |
| Strings.NatToStringLength | src/utils/idGenerator.ts:21 | a number below 10^k renders in at most k digits |
| Strings.PadStart | src/utils/idGenerator.ts:21 | the result is the input preceded by just enough fill characters to reach the width, or the input itself when it is already that long |
| Strings.LeadingZeros | src/utils/idGenerator.ts:21 | leading zeros do not change the value of a numeral |
| IdGenerator.DateStamp | src/utils/idGenerator.ts:9 | the date stamp contains no hyphen |
| IdGenerator.RandomPart | src/utils/idGenerator.ts:10 | the random part is the uuid's first (up to) 4 characters, each upper-cased, so it has no lowercase ASCII letter |
| IdGenerator.GenerateSpecimenId | src/utils/idGenerator.ts:7-13 | the identifier starts with the prefix and a hyphen |
| IdGenerator.GenerateDefaultSpecimenId | src/utils/idGenerator.ts:7-12 | with no prefix given, the identifier starts with `SPEC-` |
| IdGenerator.ValidateSpecimenId | src/utils/idGenerator.ts:28-31 | the pattern test, checked position by position from the end; ValidateIffFormatted states what it accepts |
| IdGenerator.ParseSpecimenId | src/utils/idGenerator.ts:28-31 | the parse succeeds exactly when the identifier validates; then it yields well-formed parts that format back to the identifier |
| IdGenerator.ParseFormat | src/utils/idGenerator.ts:29 | formatting well-formed parts and parsing gives the parts back |
| IdGenerator.ValidateIffFormatted | src/utils/idGenerator.ts:29 | an identifier validates exactly when it is the formatting of some uppercase prefix, 8 digits and 4 uppercase alphanumerics |
| IdGenerator.DateStampOfIso | src/utils/idGenerator.ts:8-9 | for an ISO timestamp, the stamp is year, month and day without hyphens: 8 digits |
| IdGenerator.RandomPartOfUuid | src/utils/idGenerator.ts:10 | for a hex uuid, the random part is 4 uppercase letters or digits |
| IdGenerator.GeneratedIdValidates | src/utils/idGenerator.ts:7-30 | generate then validate: every non-empty uppercase prefix with an ISO timestamp and a hex uuid gives an identifier that validates and parses to that prefix, date and random part |
| IdGenerator.DefaultIdValidates | src/utils/idGenerator.ts:7-30 | an identifier made with the default prefix validates |
| IdGenerator.EmptyPrefixRejected | src/utils/idGenerator.ts:29 | an identifier that starts with a hyphen is rejected |
| IdGenerator.LowercaseRejected | src/utils/idGenerator.ts:29 | an identifier containing a lowercase letter is rejected |
| IdGenerator.FinalSegmentLengthRejected | src/utils/idGenerator.ts:29 | an identifier whose last segment is not 4 characters long is rejected |
| IdGenerator.SequenceNumber | src/utils/idGenerator.ts:20-21 | the padded part is at least 6 characters |
| IdGenerator.GenerateSequentialId | src/utils/idGenerator.ts:19-23 | the identifier is the prefix, a hyphen and at least 6 more characters |
| IdGenerator.SequentialIdNumber | src/utils/idGenerator.ts:19-22 | for a last number of -1 or more, the numeric part is digits denoting the next number; up to 999998 it is exactly 6 digits |
| IdGenerator.SequentialIdsIncrease | src/utils/idGenerator.ts:20-22 | from -1 up, a larger last number gives a numerically larger sequence number |
| IdGenerator.SequenceNumberShape | src/utils/idGenerator.ts:21 | the sequence part is at least 6 characters, and has a hyphen 5 from its end only when it is exactly 6 long |
| IdGenerator.SequentialIdRejected | src/utils/idGenerator.ts:19-30 | no sequential identifier validates, for any number and prefix |
| Validators.ValidateCoordinates | src/utils/validators.ts:6-16 | valid exactly when each given coordinate is within its inclusive bounds; the latitude message exactly when latitude is out of range; the longitude message only when latitude is acceptable |
| Validators.AbsentCoordinatesValid | src/utils/validators.ts:6-16 | two absent coordinates are valid |
| Validators.ValidateUnits | src/utils/validators.ts:21-36 | a unit outside the list is invalid whatever the value, with the listing message; with a listed unit, valid exactly when the value is not negative |
| Validators.UnitMessageMentionsUnits | src/utils/validators.ts:27 | the unit message names the rejected unit and every accepted unit |
| Validators.RuleErrors | src/utils/validators.ts:45-74 | one rule contributes at most two messages, each the rule's message: a required rule fires exactly on a missing value; a range rule once per bound a number violates; a pattern rule exactly when a string fails it; a custom rule exactly when its validator says no |
| Validators.ValidateField | src/utils/validators.ts:41-78 | the errors are every rule's messages in rule order; valid exactly when there are none, and exactly when every rule passes |
| Validators.AllErrorsAppend | src/utils/validators.ts:44-75 | the errors of a concatenation of rule lists are the errors of each list in turn: nothing short-circuits |
| Validators.NoErrorsIffEveryRulePasses | src/utils/validators.ts:77 | an empty error list means every single rule passed, and conversely |
| Validators.AllErrorsBounded | src/utils/validators.ts:44-75 | at most two messages per rule, and every message is some rule's message |
| Validators.RangeIgnoresNonNumbers | src/utils/validators.ts:52-61 | range rules report nothing for a value that is not a number |
| Validators.PatternIgnoresNonStrings | src/utils/validators.ts:63-67 | pattern rules report nothing for a value that is not a string |
| Validators.RequiredRuleFailsOnMissing | src/utils/validators.ts:46-50 | a required rule fails exactly on undefined, null and the empty string |
| Validators.Recoordinate | src/utils/validators.ts:94-99 | a number is kept; any other value is rendered, its first comma made a point, and parsed: a number when the parse succeeds, NaN when it does not |
| Validators.AutoCorrectData | src/utils/validators.ts:83-102 | the keys are unchanged; other strings are trimmed and non-strings kept; a coordinate is re-parsed only when its trimmed value is truthy; a non-zero number coordinate is kept; a non-blank string coordinate becomes the parse of its trimmed text with the first comma made a point; any other truthy coordinate becomes the parse of its `String(v)` rendering with the first comma made a point |
| Validators.AutoCorrectIdempotent | src/utils/validators.ts:83-102 | correcting corrected data changes nothing |
| Validators.AutoCorrectExample | src/utils/validators.ts:83-102 | a decimal comma in a coordinate becomes a point before parsing, and a padded name is trimmed |
| SpecimenStore.Add | src/features/specimens/SpecimenForm.tsx:84 | adding fails exactly when the id is taken; otherwise the record is filed under its id and nothing else changes |
| SpecimenStore.Delete | src/features/specimens/SpecimenList.tsx:38 | only that key goes; the other records stay as they were |
| SpecimenStore.DeleteIdempotent | src/features/specimens/SpecimenList.tsx:38 | deleting twice is deleting once |
| SpecimenStore.DuplicateAddKeepsFirst | src/features/specimens/SpecimenForm.tsx:84 | a second record with a taken id is refused and the first stays |
| SpecimenStore.ToArray | src/features/specimens/SpecimenList.tsx:13 | the array holds every stored record exactly once |
| SpecimenStore.ListsPermutation | src/features/specimens/SpecimenList.tsx:13-16 | any reordering of a listing is again a listing of the same store |
| SpecimenStore.AddThenList | src/features/specimens/SpecimenForm.tsx:84 | a record just added appears in the next listing |
| SpecimenForm.FreshDraft | src/features/specimens/SpecimenForm.tsx:89-95 | the reset draft holds only the new specimen number and the kept collector, dated now and pending |
| SpecimenForm.FreshIdsValidate | src/features/specimens/SpecimenForm.tsx:89-95 | with a well-shaped clock reading and uuids, the reset draft's id and specimen number both validate, and each parses to the default prefix, the reading's date and the first four characters of its own uuid |
| SpecimenForm.Initial | src/features/specimens/SpecimenForm.tsx:12-21 | the form mounts with the reset draft for an empty collector name: dated now, pending, and with an id and a specimen number that parse to the default prefix, the reading's date and the first four characters of their own uuids; no errors and the QR panel closed |
| SpecimenForm.HandleInputChange | src/features/specimens/SpecimenForm.tsx:23-34 | only the edited property changes; only its own error goes, and only when that error is a non-empty message |
| SpecimenForm.CoordinatesErrorSurvivesEdit | src/features/specimens/SpecimenForm.tsx:26-33 | no edit removes the coordinates error, because no input is keyed `coordinates` |
| SpecimenForm.EditClearsCollectorError | src/features/specimens/SpecimenForm.tsx:26-33 | editing the collector removes the collector error |
| SpecimenForm.UseCurrentLocation | src/features/specimens/SpecimenForm.tsx:36-45 | the position is copied only when latitude and longitude are both truthy; no property outside the position changes, nor the id, collection date, sync status, errors or QR panel |
| SpecimenForm.EquatorPositionIgnored | src/features/specimens/SpecimenForm.tsx:37 | a reading with latitude or longitude exactly 0 is not copied |
| SpecimenForm.GenerateNewId | src/features/specimens/SpecimenForm.tsx:47-50 | id and specimen number become the same new identifier, which validates and parses to the default prefix, the clock reading's date and the uuid's first four characters; no other property, nor the collection date, sync status, errors or QR panel, changes |
| SpecimenForm.MissingIffTrimEmpty | src/features/specimens/SpecimenForm.tsx:55 | the trim test is the missing-or-whitespace test |
| SpecimenForm.ValidateForm | src/features/specimens/SpecimenForm.tsx:52-66 | a collector error exactly when the collector is missing or whitespace only (the `trim()` test, by MissingIffTrimEmpty); a coordinates error exactly when the coordinate check fails, with its message; the form is valid exactly when both pass |
| SpecimenForm.CollectorPaddingIrrelevant | src/features/specimens/SpecimenForm.tsx:55 | surrounding the collector name with whitespace does not change the validation |
| SpecimenForm.Assemble | src/features/specimens/SpecimenForm.tsx:76-82 | the record keeps the draft's id and collection date, is pending and modified now, and has nothing the form does not edit |
| SpecimenForm.AssembleCopiesDraft | src/features/specimens/SpecimenForm.tsx:76-82 | every property of the record, read back, is what the draft holds |
| SpecimenForm.AssembleForcesPending | src/features/specimens/SpecimenForm.tsx:81 | the draft's own sync status never reaches the record |
| SpecimenForm.HandleSubmit | src/features/specimens/SpecimenForm.tsx:68-100 | an invalid form leaves store and draft alone; a taken id leaves them alone; a save files exactly the assembled record (the draft's contents, pending, modified now) under the draft's id and resets the draft keeping the collector |
| SpecimenForm.SubmitKeepsPolicy | src/features/specimens/SpecimenForm.tsx:71-84 | if every stored record had a collector, acceptable coordinates and pending status, that stays true after a submit |
| SpecimenForm.DeleteKeepsPolicy | src/features/specimens/SpecimenList.tsx:38 | deleting keeps that store invariant |
| SpecimenForm.SavedDraftIdsValidate | src/features/specimens/SpecimenForm.tsx:89-95 | a valid form with an unused id is saved, and then the fresh ids validate and the collector is the previous one |
| SpecimenForm.ClearForm | src/features/specimens/SpecimenForm.tsx:327-338 | a confirmed clear resets the draft keeping the collector and closes the QR panel; errors are left as they were; a declined one changes nothing |
| SpecimenForm.TransitionsKeepWellFormed | src/features/specimens/SpecimenForm.tsx:23-100 | every handler keeps specimen number and collector present and every value of its property's kind |
| SpecimenList.InsertByDate | src/features/specimens/SpecimenList.tsx:14-16 | inserting into a newest-first list keeps it newest first and adds exactly that record |
| SpecimenList.SortByDateDesc | src/features/specimens/SpecimenList.tsx:14-16 | the result is newest first and a permutation of the input |
| SpecimenList.SortIsStable | src/features/specimens/SpecimenList.tsx:14-16 | records with the same collection date keep their fetched order |
| SpecimenList.LoadSpecimens | src/features/specimens/SpecimenList.tsx:12-27 | the loaded list is exactly the stored records, newest first; filter and selection are untouched |
| SpecimenList.MatchesQuery | src/features/specimens/SpecimenList.tsx:29-34 | the filter's test: the lowercased query occurs in the specimen number, the common or scientific name when present, or the collector; FilterSpecimens and QueryCaseInsensitive state its consequences |
| SpecimenList.FilterSpecimens | src/features/specimens/SpecimenList.tsx:29-34 | a record is shown exactly when it is loaded and the lowercased query occurs in one of its four lowercased searchable properties |
| SpecimenList.FilterIsSubsequence | src/features/specimens/SpecimenList.tsx:29-34 | the shown list is the loaded list with records left out, order kept |
| SpecimenList.EmptyQueryKeepsAll | src/features/specimens/SpecimenList.tsx:29-34 | an empty query shows every loaded record |
| SpecimenList.QueryCaseInsensitive | src/features/specimens/SpecimenList.tsx:29-34 | for an ASCII query, upper-casing it does not change which records match |
| SpecimenList.DeleteSpecimen | src/features/specimens/SpecimenList.tsx:36-44 | a confirmed delete removes the id from the store and the reloaded list, and clears the selection exactly when it was that record; a declined one changes nothing |
| SpecimenList.ExportData | src/features/specimens/SpecimenList.tsx:46-53 | the export is the loaded list under the dated file name; ExportIgnoresFilter and ExportIncludesHidden state that the search does not reach it |
| SpecimenList.ExportFileName | src/features/specimens/SpecimenList.tsx:52 | the name is `specimens-export-`, the first 10 characters of the ISO date, then `.json` |
| SpecimenList.ExportIgnoresFilter | src/features/specimens/SpecimenList.tsx:46-47 | the export does not depend on the search and contains every shown record in order |
| SpecimenList.ExportIncludesHidden | src/features/specimens/SpecimenList.tsx:47 | a record the search hides is still exported |
| SpecimenList.ExportDateMatchesIdDate | src/features/specimens/SpecimenList.tsx:52 | the file's date without hyphens is the date stamp an identifier made at that instant carries |
| ResetPassword.Utf16Length | src/features/auth/ResetPassword.tsx:33 | the length lies between the character count and twice it; Utf16LengthAppend and Utf16LengthChar pin it as one unit per BMP character plus two per astral one |
| ResetPassword.HandleSubmit | src/features/auth/ResetPassword.tsx:23-38 | both texts are cleared; a mismatch gives its error; an agreeing password shorter than 6 gives the length error; the update is requested and loading starts exactly when both checks pass |
| ResetPassword.MismatchTakesPrecedence | src/features/auth/ResetPassword.tsx:28-36 | when both checks fail, the mismatch is reported |
| ResetPassword.SubmitIgnoresPriorTexts | src/features/auth/ResetPassword.tsx:25-26 | the error and message shown before a submit have no effect on it |
| ResetPassword.BmpLength | src/features/auth/ResetPassword.tsx:33 | without astral characters, the length is the character count |
| ResetPassword.Utf16LengthAppend | src/features/auth/ResetPassword.tsx:33 | the length of a concatenation is the sum of the lengths |
| ResetPassword.Utf16LengthChar | src/features/auth/ResetPassword.tsx:33 | a character counts two code units outside the BMP and one inside it |
| ResetPassword.MixedLength | src/features/auth/ResetPassword.tsx:33 | four BMP characters and one astral character are six units and pass the length check |
| ResetPassword.AstralCountsTwice | src/features/auth/ResetPassword.tsx:33 | three astral characters pass the 6-unit length check |
| ResetPassword.FinishUpdate | src/features/auth/ResetPassword.tsx:40-54 | success shows the success message, keeps loading and redirects; failure shows the failure's message or the fallback and stops loading |
| ResetPassword.SuccessKeepsLoading | src/features/auth/ResetPassword.tsx:38-50 | after an accepted submit and a successful update, loading stays on with no error until the redirect |
| ResetPassword.OnAuthEvent | src/features/auth/ResetPassword.tsx:14-21 | a recovery event shows the prompt and changes nothing else; other events change nothing |

## Left out

- `src/database/db.ts` is not part of this model. The store is an abstract map. `add` fails on a taken key, `delete` of an absent key does nothing, and `toArray` returns the records in an order the model leaves open. Other store failures (quota, a closed database) are not modelled, so `SaveFailed` arises only from a taken id.
- Geolocation (`src/hooks/useGeolocation.ts`) is reduced to the `Position` the location button reads. Its asynchronous acquisition, watch mode and errors are out of scope.
- The remote calls are out of scope: Supabase's `updateUser` and auth events are inputs, and the post-success timer and navigation are a `redirectToLogin` flag.
- The user interface is out of scope: rendering, the QR code, `alert`, the text of `confirm` (its answer is a parameter), the Blob download and `JSON.stringify` (the export is the record sequence and the file name).
- Clocks and randomness are parameters. `new Date()` and `uuidv4()` come in as an `Entropy` value: an instant, an ISO text standing for it (the model does not tie the two together), and two uuid strings. A handler that reads the clock more than once is given a single reading.
- IEEE floating point is out of scope. Coordinates and measurements are exact reals. The `NaN` that `parseFloat` of a cleared number input gives is not modelled in the form. The generic validators and auto-correction do treat `NaN` as a value, which compares false with every bound. `parseFloat` itself is an abstract function.
- Strings.ToLower: maps ASCII letters only, not the full Unicode case table of `toLowerCase`.
- Strings.ToUpper: maps ASCII letters only, not the full Unicode case table of `toUpperCase`.
- SpecimenList.MatchesQuery: inherits the ASCII-only case mapping, so beyond ASCII (`"ß"`, `"İ"`) the model's search can differ from the program's.
- SpecimenList.FilterSpecimens: inherits the ASCII-only case mapping of MatchesQuery.
- Strings.LowerOfUpper: stated for ASCII text only, because beyond ASCII it is false of the program: `"ß".toUpperCase().toLowerCase()` is `"ss"`.
- SpecimenList.QueryCaseInsensitive: stated for ASCII queries only. For others it does not hold of the program: `"ß".toUpperCase()` is `"SS"`, so a collector "Strauß" matches the query "ß" but not "SS".
- IdGenerator.SequentialIdNumber: states the numeric part only for whole last numbers of -1 or more. Fractional, exponent-form and negative renderings of `String(n)` beyond `-n` are not modelled.
- IdGenerator.DateStampOfIso: assumes `toISOString` text with a four-digit year. Years outside 0000-9999, which it renders with a sign and six digits, are not covered.
- SpecimenForm.HandleInputChange: covers the fifteen properties the form's inputs and location button write, not every `keyof Specimen`. Its well-formedness result assumes the value's kind matches the property, as every call site in the form ensures.
- `setState` batching and the asynchronous ordering of React updates are not modelled. Each handler is one atomic transition, and the list reload after a delete completes before the selection is cleared.

=== FILE: id_generator.dfy ===
/**
 Specimen identifiers. Two generators: the date-stamped `PREFIX-YYYYMMDD-XXXX`
 and the sequential `PREFIX-NNNNNN`, and the recogniser for the first format.
 The clock reading (as its ISO-8601 rendering) and the uuid are parameters.
 */
module IdGenerator {
  import opened SpecimenTypes
  import opened Strings

  const DefaultPrefix := "SPEC"

  /* ---------------------------------------------------------------------- */
  /* The date-stamped format                                                */

  /** The three segments of `PREFIX-YYYYMMDD-XXXX`. */
  datatype IdParts = IdParts(prefix: string, date: string, random: string)

  function Format(p: IdParts): string
  {
    p.prefix + "-" + p.date + "-" + p.random
  }

  /** The segments the recogniser's pattern admits: `[A-Z]+`, `\d{8}`, `[A-Z0-9]{4}`. */
  predicate WellFormedParts(p: IdParts)
  {
    && |p.prefix| >= 1 && AllUpper(p.prefix)
    && |p.date| == 8 && AllDigits(p.date)
    && |p.random| == 4 && AllUpperAlnum(p.random)
  }

  /** `toISOString().slice(0, 10).replace(/-/g, '')`. */
  function DateStamp(iso: string): (r: string)
    ensures '-' !in r
  {
    RemoveAll(Take(iso, 10), '-')
  }

  /** `uuidv4().slice(0, 4).toUpperCase()`. */
  function RandomPart(uuid: string): (r: string)
    ensures |r| <= 4 && (|uuid| >= 4 ==> |r| == 4)
    ensures |r| <= |uuid| && forall i :: 0 <= i < |r| ==> r[i] == UpperChar(uuid[i])
    ensures forall i :: 0 <= i < |r| ==> !IsLowerLetter(r[i])
  {
    ToUpper(Take(uuid, 4))
  }

  /** `generateSpecimenId(prefix)` at the instant rendered as `iso`, drawing `uuid`. */
  function GenerateSpecimenId(prefix: string, iso: string, uuid: string): (id: string)
    ensures |id| >= |prefix| + 2 && id[..|prefix| + 1] == prefix + "-"
  {
    Format(IdParts(prefix, DateStamp(iso), RandomPart(uuid)))
  }

  /** The generator with its default prefix. */
  function GenerateDefaultSpecimenId(iso: string, uuid: string): (id: string)
    ensures |id| >= 6 && id[..5] == "SPEC-"
  {
    GenerateSpecimenId(DefaultPrefix, iso, uuid)
  }

  /**
   `validateSpecimenId`: `/^[A-Z]+-\d{8}-[A-Z0-9]{4}$/`. The last two segments
   have fixed widths, so the pattern can be checked position by position from
   the end.
   */
  predicate ValidateSpecimenId(id: string)
  {
    var n := |id|;
    && n >= 15
    && AllUpper(id[..n - 14])
    && id[n - 14] == '-'
    && AllDigits(id[n - 13..n - 5])
    && id[n - 5] == '-'
    && AllUpperAlnum(id[n - 4..])
  }

  /** Splits an accepted identifier into its segments. */
  function ParseSpecimenId(id: string): (r: Option<IdParts>)
    ensures r.Some? <==> ValidateSpecimenId(id)
    ensures r.Some? ==> WellFormedParts(r.value) && Format(r.value) == id
  {
    if ValidateSpecimenId(id) then
      var n := |id|;
      var p := IdParts(id[..n - 14], id[n - 13..n - 5], id[n - 4..]);
      assert Format(p) == id;
      Some(p)
    else None
  }

  /** Formatting well-formed segments and parsing the result gives them back. */
  lemma ParseFormat(p: IdParts)
    requires WellFormedParts(p)
    ensures ParseSpecimenId(Format(p)) == Some(p)
  {
    var id := Format(p);
    var n := |id|;
    assert n == |p.prefix| + 14;
    assert id[..n - 14] == p.prefix;
    assert id[n - 14] == '-';
    assert id[n - 13..n - 5] == p.date;
    assert id[n - 5] == '-';
    assert id[n - 4..] == p.random;
  }

  /** The recogniser accepts exactly the formatted well-formed segment triples. */
  lemma ValidateIffFormatted(id: string)
    ensures ValidateSpecimenId(id) <==> exists p :: WellFormedParts(p) && Format(p) == id
  {
    if ValidateSpecimenId(id) {
      var p := ParseSpecimenId(id).value;
      assert WellFormedParts(p) && Format(p) == id;
    }
    if exists p :: WellFormedParts(p) && Format(p) == id {
      var p :| WellFormedParts(p) && Format(p) == id;
      ParseFormat(p);
    }
  }

  /** The first ten characters of `Date.prototype.toISOString()`: `YYYY-MM-DD`. */
  predicate IsIsoTimestamp(iso: string)
  {
    && |iso| >= 10
    && AllDigits(iso[..4]) && iso[4] == '-'
    && AllDigits(iso[5..7]) && iso[7] == '-'
    && AllDigits(iso[8..10])
  }

  /** A uuid whose first four characters are hexadecimal digits, as every v4 uuid's are. */
  predicate IsUuidPrefix(uuid: string)
  {
    |uuid| >= 4 && forall i :: 0 <= i < 4 ==> IsHexDigit(uuid[i])
  }

  /** Proof helper: a leading hyphen disappears under hyphen removal. */
  lemma DropLeadingSeparator(s: string)
    ensures RemoveAll("-" + s, '-') == RemoveAll(s, '-')
  {
    assert ("-" + s)[1..] == s;
  }

  /** Proof helper: removing the two separators of `a-b-c` joins the hyphen-free segments. */
  lemma {:induction false} StripSeparators(a: string, b: string, c: string)
    requires '-' !in a && '-' !in b && '-' !in c
    ensures RemoveAll(a + "-" + b + "-" + c, '-') == a + b + c
  {
    var rest2 := "-" + c;
    var rest1 := "-" + (b + rest2);
    assert a + "-" + b + "-" + c == a + rest1;
    RemoveAllAbsent(c, '-');
    DropLeadingSeparator(c);
    assert RemoveAll(rest2, '-') == c;
    RemoveAllAppend(b, rest2, '-');
    RemoveAllAbsent(b, '-');
    assert RemoveAll(b + rest2, '-') == b + c;
    DropLeadingSeparator(b + rest2);
    assert RemoveAll(rest1, '-') == b + c;
    RemoveAllAppend(a, rest1, '-');
    RemoveAllAbsent(a, '-');
    assert RemoveAll(a + rest1, '-') == a + (b + c);
  }

  lemma DateStampOfIso(iso: string)
    requires IsIsoTimestamp(iso)
    ensures DateStamp(iso) == iso[..4] + iso[5..7] + iso[8..10]
    ensures |DateStamp(iso)| == 8 && AllDigits(DateStamp(iso))
  {
    var y, m, d := iso[..4], iso[5..7], iso[8..10];
    assert Take(iso, 10) == y + "-" + m + "-" + d;
    assert '-' !in y by { forall i | 0 <= i < |y| ensures y[i] != '-' { assert IsDigit(y[i]); } }
    assert '-' !in m by { forall i | 0 <= i < |m| ensures m[i] != '-' { assert IsDigit(m[i]); } }
    assert '-' !in d by { forall i | 0 <= i < |d| ensures d[i] != '-' { assert IsDigit(d[i]); } }
    StripSeparators(y, m, d);
  }

  lemma RandomPartOfUuid(uuid: string)
    requires IsUuidPrefix(uuid)
    ensures |RandomPart(uuid)| == 4 && AllUpperAlnum(RandomPart(uuid))
  {
    var r := RandomPart(uuid);
    forall i | 0 <= i < 4
      ensures IsUpperLetter(r[i]) || IsDigit(r[i])
    {
      assert r[i] == UpperChar(uuid[i]);
    }
  }

  /**
   Generate-then-validate: an identifier made from an upper-case prefix, an
   ISO timestamp and a uuid is accepted, and parses back into its segments.
   */
  lemma GeneratedIdValidates(prefix: string, iso: string, uuid: string)
    requires |prefix| >= 1 && AllUpper(prefix)
    requires IsIsoTimestamp(iso) && IsUuidPrefix(uuid)
    ensures ValidateSpecimenId(GenerateSpecimenId(prefix, iso, uuid))
    ensures ParseSpecimenId(GenerateSpecimenId(prefix, iso, uuid))
         == Some(IdParts(prefix, iso[..4] + iso[5..7] + iso[8..10], RandomPart(uuid)))
  {
    DateStampOfIso(iso);
    RandomPartOfUuid(uuid);
    ParseFormat(IdParts(prefix, DateStamp(iso), RandomPart(uuid)));
  }

  /** The identifiers the application actually generates, with the default prefix, validate. */
  lemma DefaultIdValidates(iso: string, uuid: string)
    requires IsIsoTimestamp(iso) && IsUuidPrefix(uuid)
    ensures ValidateSpecimenId(GenerateDefaultSpecimenId(iso, uuid))
  {
    GeneratedIdValidates(DefaultPrefix, iso, uuid);
  }

  /* ---------------------------------------------------------------------- */
  /* What the recogniser rejects                                            */

  lemma EmptyPrefixRejected(rest: string)
    ensures !ValidateSpecimenId("-" + rest)
  {
    var id := "-" + rest;
    if |id| >= 15 {
      assert id[..|id| - 14][0] == '-';
    }
  }

  /** No accepted identifier contains a lower-case letter. */
  lemma LowercaseRejected(id: string, i: int)
    requires 0 <= i < |id| && IsLowerLetter(id[i])
    ensures !ValidateSpecimenId(id)
  {
    var n := |id|;
    if n >= 15 {
      if i < n - 14 {
        assert id[..n - 14][i] == id[i];
      } else if n - 13 <= i < n - 5 {
        assert id[n - 13..n - 5][i - (n - 13)] == id[i];
      } else if n - 4 <= i {
        assert id[n - 4..][i - (n - 4)] == id[i];
      }
    }
  }

  /** A final hyphen-free segment whose length is not 4 is rejected. */
  lemma FinalSegmentLengthRejected(head: string, last: string)
    requires '-' !in last && |last| != 4
    ensures !ValidateSpecimenId(head + "-" + last)
  {
    var id := head + "-" + last;
    var n := |id|;
    if n >= 15 {
      if |last| > 4 {
        assert id[n - 5] == last[|last| - 5];
        assert last[|last| - 5] in last;
      } else {
        assert id[n - 4..][4 - |last| - 1] == id[n - |last| - 1] == '-';
      }
    }
  }

  /* ---------------------------------------------------------------------- */
  /* The sequential format                                                  */

  /** `String(lastNumber + 1).padStart(6, '0')`. */
  function SequenceNumber(lastNumber: int): (q: string)
    ensures |q| >= 6
  {
    PadStart(IntToString(lastNumber + 1), 6, '0')
  }

  /** `generateSequentialId(lastNumber, prefix)`. */
  function GenerateSequentialId(lastNumber: int, prefix: string): (id: string)
    ensures |id| >= |prefix| + 7 && id[..|prefix| + 1] == prefix + "-"
  {
    prefix + "-" + SequenceNumber(lastNumber)
  }

  /** The padded part is a numeral for the next number, six digits up to 999999. */
  lemma SequenceNumberValue(lastNumber: int)
    requires lastNumber >= -1
    ensures AllDigits(SequenceNumber(lastNumber))
    ensures DigitsValue(SequenceNumber(lastNumber)) == lastNumber + 1
    ensures lastNumber <= 999998 ==> |SequenceNumber(lastNumber)| == 6
  {
    var digits := NatToString(lastNumber + 1);
    assert IntToString(lastNumber + 1) == digits;
    var q := SequenceNumber(lastNumber);
    assert q == Repeat('0', |q| - |digits|) + digits;
    LeadingZeros(|q| - |digits|, digits);
    if lastNumber <= 999998 {
      assert Pow10(6) == 1000000 by {
        assert Pow10(2) == 100;
        assert Pow10(4) == 10000;
      }
      NatToStringLength(lastNumber + 1, 6);
    }
  }

  /**
   The numeric part of a sequential identifier is a numeral for the next
   number; up to 999999 it is exactly six digits wide.
   */
  lemma SequentialIdNumber(lastNumber: int, prefix: string)
    requires lastNumber >= -1
    ensures var id := GenerateSequentialId(lastNumber, prefix);
      && id[..|prefix| + 1] == prefix + "-"
      && AllDigits(id[|prefix| + 1..])
      && DigitsValue(id[|prefix| + 1..]) == lastNumber + 1
    ensures lastNumber <= 999998 ==> |GenerateSequentialId(lastNumber, prefix)| == |prefix| + 7
  {
    var id := GenerateSequentialId(lastNumber, prefix);
    var q := SequenceNumber(lastNumber);
    assert id == (prefix + "-") + q;
    assert id[..|prefix| + 1] == prefix + "-";
    assert id[|prefix| + 1..] == q;
    SequenceNumberValue(lastNumber);
  }

  /** From -1 up, sequential identifiers number upwards as `lastNumber` grows. */
  lemma SequentialIdsIncrease(a: int, b: int)
    requires -1 <= a < b
    ensures AllDigits(SequenceNumber(a)) && AllDigits(SequenceNumber(b))
    ensures DigitsValue(SequenceNumber(a)) < DigitsValue(SequenceNumber(b))
  {
    SequenceNumberValue(a);
    SequenceNumberValue(b);
  }

  /**
   A padded sequence number is at least six characters; a hyphen five from its
   end occurs only for a four-digit negative number, padded to exactly six.
   */
  lemma SequenceNumberShape(lastNumber: int)
    ensures |SequenceNumber(lastNumber)| >= 6
    ensures var q := SequenceNumber(lastNumber); q[|q| - 5] == '-' ==> |q| == 6
  {
    var m := lastNumber + 1;
    var s := IntToString(m);
    PadStartFromEnd(s, 6, '0', 5);
    if m >= 0 {
      if |s| >= 5 {
        assert IsDigit(s[|s| - 5]);
      }
    } else {
      var d := NatToString(-m);
      if |s| >= 6 {
        assert s[|s| - 5] == d[|s| - 6];
        assert IsDigit(d[|s| - 6]);
      }
    }
  }

  /**
   Proof helper: a hyphen-terminated head followed by a tail that has a hyphen five from its
   end only when it is six long never forms `PREFIX-YYYYMMDD-XXXX`: either the
   second separator is missing or the head's hyphen falls inside the date.
   */
  lemma NoDateSegment(head: string, q: string, id: string)
    requires |head| >= 1 && head[|head| - 1] == '-'
    requires |q| >= 6 && (q[|q| - 5] == '-' ==> |q| == 6)
    requires id == head + q
    ensures !ValidateSpecimenId(id)
  {
    var n := |id|;
    assert id[n - 5] == q[|q| - 5];
    if n >= 15 && q[|q| - 5] == '-' {
      assert id[n - 7] == head[|head| - 1];
      assert id[n - 13..n - 5][6] == id[n - 7];
    }
  }

  /**
   The recogniser rejects every sequential identifier, whatever the prefix and
   number: it has no eight-digit date segment.
   */
  lemma SequentialIdRejected(lastNumber: int, prefix: string)
    ensures !ValidateSpecimenId(GenerateSequentialId(lastNumber, prefix))
  {
    SequenceNumberShape(lastNumber);
    NoDateSegment(prefix + "-", SequenceNumber(lastNumber), GenerateSequentialId(lastNumber, prefix));
  }
}

=== FILE: reset_password.dfy ===
/**
 The reset-password page: two ordered local checks before the remote update,
 then the message or error the remote outcome produces. The remote call itself
 is an input (`UpdateOutcome`).
 */
module ResetPassword {
  import opened SpecimenTypes

  datatype ResetForm = ResetForm(
    password: string,
    confirmPassword: string,
    error: string,
    message: string,
    loading: bool)

  const MismatchMessage := "Passwords do not match"
  const LengthMessage := "Password must be at least 6 characters"
  const SuccessMessage := "Password updated successfully! Redirecting to login..."
  const FallbackFailure := "Failed to reset password"
  const RecoveryPrompt := "Enter your new password below."
  const MinLength := 6

  /** `s.length`: UTF-16 code units, so a character outside the BMP counts twice. */
  function Utf16Length(s: string): (n: nat)
    ensures |s| <= n <= 2 * |s|
  {
    if s == [] then 0 else (if s[0] as int > 0xFFFF then 2 else 1) + Utf16Length(s[1..])
  }

  /** A password the page sends on: both entries agree and it is long enough. */
  predicate Acceptable(password: string, confirmPassword: string)
  {
    password == confirmPassword && Utf16Length(password) >= MinLength
  }

  datatype SubmitStep = SubmitStep(form: ResetForm, requestsUpdate: bool)

  /** `handleSubmit` up to the remote call: clear both texts, then mismatch, then length. */
  function HandleSubmit(f: ResetForm): (r: SubmitStep)
    ensures r.form.password == f.password && r.form.confirmPassword == f.confirmPassword
    ensures r.form.message == ""
    ensures r.requestsUpdate <==> Acceptable(f.password, f.confirmPassword)
    ensures f.password != f.confirmPassword ==> r.form.error == MismatchMessage
    ensures f.password == f.confirmPassword && Utf16Length(f.password) < MinLength ==> r.form.error == LengthMessage
    ensures r.requestsUpdate ==> r.form.error == ""
    ensures r.form.loading <==> r.requestsUpdate || f.loading
  {
    var cleared := f.(error := "", message := "");
    if f.password != f.confirmPassword then SubmitStep(cleared.(error := MismatchMessage), false)
    else if Utf16Length(f.password) < MinLength then SubmitStep(cleared.(error := LengthMessage), false)
    else SubmitStep(cleared.(loading := true), true)
  }

  /** When both checks fail, the mismatch is the one reported. */
  lemma MismatchTakesPrecedence(f: ResetForm)
    requires f.password != f.confirmPassword && Utf16Length(f.password) < MinLength
    ensures HandleSubmit(f).form.error == MismatchMessage
    ensures !HandleSubmit(f).requestsUpdate
  {
  }

  /** What the page showed before a submit has no bearing on the submit. */
  lemma SubmitIgnoresPriorTexts(f: ResetForm, error: string, message: string)
    ensures HandleSubmit(f.(error := error, message := message)) == HandleSubmit(f)
  {
  }

  /** For text without astral characters the length is the character count. */
  lemma {:induction false} BmpLength(s: string)
    requires forall i :: 0 <= i < |s| ==> s[i] as int <= 0xFFFF
    ensures Utf16Length(s) == |s|
  {
    if s != [] {
      BmpLength(s[1..]);
    }
  }

  /** The length of a concatenation is the sum of the lengths. */
  lemma {:induction false} Utf16LengthAppend(a: string, b: string)
    ensures Utf16Length(a + b) == Utf16Length(a) + Utf16Length(b)
  {
    if a != [] {
      assert (a + b)[1..] == a[1..] + b;
      Utf16LengthAppend(a[1..], b);
    } else {
      assert a + b == b;
    }
  }

  /** One character is two code units outside the BMP and one inside it. */
  lemma Utf16LengthChar(c: char)
    ensures Utf16Length([c]) == if c as int > 0xFFFF then 2 else 1
  {
    assert [c][1..] == [];
  }

  /** Four BMP characters and one astral character are six code units and pass the length check. */
  lemma MixedLength(c: char)
    requires c as int > 0xFFFF
    ensures Utf16Length("abcd" + [c]) == 6
    ensures Acceptable("abcd" + [c], "abcd" + [c])
  {
    BmpLength("abcd");
    Utf16LengthChar(c);
    Utf16LengthAppend("abcd", [c]);
  }

  /** Worked example: three astral characters are six code units and pass the length check. */
  lemma AstralCountsTwice(c: char)
    requires c as int > 0xFFFF
    ensures Utf16Length([c, c, c]) == 6
    ensures Acceptable([c, c, c], [c, c, c])
  {
    assert [c][1..] == [];
    assert Utf16Length([c]) == 2;
    assert [c, c][1..] == [c];
    assert Utf16Length([c, c]) == 4;
    assert [c, c, c][1..] == [c, c];
  }

  /** What the remote update reported; `Failed(None)` is a thrown value that is not an `Error`. */
  datatype UpdateOutcome = Updated | Failed(message: Option<string>)

  datatype Finish = Finish(form: ResetForm, redirectToLogin: bool)

  /** The `try`/`catch` after the update call. */
  function FinishUpdate(f: ResetForm, outcome: UpdateOutcome): (r: Finish)
    ensures r.form.password == f.password && r.form.confirmPassword == f.confirmPassword
    ensures r.redirectToLogin <==> outcome.Updated?
    ensures outcome.Updated? ==> r.form.message == SuccessMessage && r.form.error == f.error && r.form.loading == f.loading
    ensures outcome.Failed? ==> !r.form.loading && r.form.message == f.message
    ensures outcome.Failed? && outcome.message.Some? ==> r.form.error == outcome.message.value
    ensures outcome == Failed(None) ==> r.form.error == FallbackFailure
  {
    match outcome
    case Updated => Finish(f.(message := SuccessMessage), true)
    case Failed(m) => Finish(f.(error := if m.Some? then m.value else FallbackFailure, loading := false), false)
  }

  /** After an accepted submit and a successful update, the spinner stays on until the redirect. */
  lemma SuccessKeepsLoading(f: ResetForm)
    requires Acceptable(f.password, f.confirmPassword)
    ensures var r := FinishUpdate(HandleSubmit(f).form, Updated);
      r.form.loading && r.form.error == "" && r.form.message == SuccessMessage && r.redirectToLogin
  {
  }

  /** The auth-state listener: a recovery event shows the prompt, other events change nothing. */
  function OnAuthEvent(f: ResetForm, event: string): (r: ResetForm)
    ensures event == "PASSWORD_RECOVERY" ==> r.message == RecoveryPrompt && r.(message := f.message) == f
    ensures event != "PASSWORD_RECOVERY" ==> r == f
  {
    if event == "PASSWORD_RECOVERY" then f.(message := RecoveryPrompt) else f
  }
}

=== FILE: specimen_form.dfy ===
/**
 The new-specimen form as a state machine over an immutable form state: the
 draft record being edited, the map of error messages shown under the inputs,
 and whether the QR panel is open. Clock readings and uuid output come in as
 an `Entropy` value; the browser position comes in as a `Position`.
 */
module SpecimenForm {
  import opened SpecimenTypes
  import opened Strings
  import opened IdGenerator
  import opened Validators
  import opened SpecimenStore

  /* ---------------------------------------------------------------------- */
  /* The draft                                                              */

  /** The properties the form's inputs and the location button write. */
  datatype Field =
    | SpecimenNumber | CommonName | ScientificName | CollectedBy
    | Latitude | Longitude | Altitude | LocationDescription
    | Habitat | Slope | Aspect | SoilType | Height | Diameter | Notes

  predicate IsNumeric(f: Field)
  {
    f == Latitude || f == Longitude || f == Altitude || f == Height || f == Diameter
  }

  /** The property name, which is also the key an error for it is filed under. */
  function Key(f: Field): string
  {
    match f
    case SpecimenNumber => "specimenNumber"
    case CommonName => "commonName"
    case ScientificName => "scientificName"
    case CollectedBy => "collectedBy"
    case Latitude => "latitude"
    case Longitude => "longitude"
    case Altitude => "altitude"
    case LocationDescription => "locationDescription"
    case Habitat => "habitat"
    case Slope => "slope"
    case Aspect => "aspect"
    case SoilType => "soilType"
    case Height => "height"
    case Diameter => "diameter"
    case Notes => "notes"
  }

  /** What an input hands to the change handler: its text, or the parsed number. */
  datatype Input = Text(text: string) | Number(number: real)

  /** The value's kind is the one the property is declared with. */
  predicate Fits(f: Field, v: Input)
  {
    IsNumeric(f) <==> v.Number?
  }

  /**
   The `Partial<Specimen>` being edited. `id`, `collectedDate` and `syncStatus`
   are set by every reset and are not edited by any input; the other
   properties are present exactly when they are keys of `fields`.
   */
  datatype Draft = Draft(id: string, collectedDate: Date, syncStatus: SyncStatus, fields: map<Field, Input>)

  function Lookup(d: Draft, f: Field): Option<Input>
  {
    if f in d.fields then Some(d.fields[f]) else None
  }

  function TextField(d: Draft, f: Field): Option<string>
  {
    if f in d.fields && d.fields[f].Text? then Some(d.fields[f].text) else None
  }

  function NumberField(d: Draft, f: Field): Option<real>
  {
    if f in d.fields && d.fields[f].Number? then Some(d.fields[f].number) else None
  }

  /** `specimen.collectedBy || ''`. */
  function CollectorOf(d: Draft): string
  {
    if TextField(d, CollectedBy).Some? then TextField(d, CollectedBy).value else ""
  }

  /** What the form keeps true of its draft: the two required strings are there, every value has its property's kind. */
  predicate WellFormed(d: Draft)
  {
    && SpecimenNumber in d.fields && CollectedBy in d.fields
    && forall f :: f in d.fields ==> Fits(f, d.fields[f])
  }

  datatype FormState = FormState(draft: Draft, errors: map<string, string>, showQR: bool)

  /** One clock reading (as epoch instant and ISO text) and two uuids. */
  datatype Entropy = Entropy(now: Date, iso: string, uuidA: string, uuidB: string)

  predicate WellShaped(e: Entropy)
  {
    IsIsoTimestamp(e.iso) && IsUuidPrefix(e.uuidA) && IsUuidPrefix(e.uuidB)
  }

  /** The draft every reset installs: two fresh ids, the given collector, the current instant, pending. */
  function FreshDraft(collector: string, e: Entropy): (d: Draft)
    ensures WellFormed(d) && d.syncStatus == Pending && d.collectedDate == e.now
    ensures Lookup(d, CollectedBy) == Some(Text(collector))
    ensures TextField(d, SpecimenNumber).Some?
    ensures forall f :: f != SpecimenNumber && f != CollectedBy ==> Lookup(d, f) == None
  {
    Draft(
      GenerateDefaultSpecimenId(e.iso, e.uuidA),
      e.now,
      Pending,
      map[SpecimenNumber := Text(GenerateDefaultSpecimenId(e.iso, e.uuidB)), CollectedBy := Text(collector)])
  }

  /**
   With a well-shaped clock reading and uuids, both fresh ids validate, and each
   carries the reading's date and the first four characters of its own uuid.
   */
  lemma FreshIdsValidate(collector: string, e: Entropy)
    requires WellShaped(e)
    ensures ValidateSpecimenId(FreshDraft(collector, e).id)
    ensures ValidateSpecimenId(TextField(FreshDraft(collector, e), SpecimenNumber).value)
    ensures ParseSpecimenId(FreshDraft(collector, e).id)
         == Some(IdParts(DefaultPrefix, e.iso[..4] + e.iso[5..7] + e.iso[8..10], RandomPart(e.uuidA)))
    ensures ParseSpecimenId(TextField(FreshDraft(collector, e), SpecimenNumber).value)
         == Some(IdParts(DefaultPrefix, e.iso[..4] + e.iso[5..7] + e.iso[8..10], RandomPart(e.uuidB)))
  {
    var d := FreshDraft(collector, e);
    assert d.id == GenerateDefaultSpecimenId(e.iso, e.uuidA);
    assert TextField(d, SpecimenNumber).value == GenerateDefaultSpecimenId(e.iso, e.uuidB);
    DefaultIdValidates(e.iso, e.uuidA);
    DefaultIdValidates(e.iso, e.uuidB);
    GeneratedIdValidates(DefaultPrefix, e.iso, e.uuidA);
    GeneratedIdValidates(DefaultPrefix, e.iso, e.uuidB);
  }

  /**
   The state the form mounts with: the reset draft for an empty collector name
   (generated ids, dated now, pending), no errors, QR hidden.
   */
  function Initial(e: Entropy): (st: FormState)
    ensures st.draft == FreshDraft("", e)
    ensures WellFormed(st.draft) && st.errors == map[] && !st.showQR
    ensures CollectorOf(st.draft) == ""
    ensures st.draft.collectedDate == e.now && st.draft.syncStatus == Pending
    ensures WellShaped(e) ==>
      && ParseSpecimenId(st.draft.id)
         == Some(IdParts(DefaultPrefix, e.iso[..4] + e.iso[5..7] + e.iso[8..10], RandomPart(e.uuidA)))
      && ParseSpecimenId(TextField(st.draft, SpecimenNumber).value)
         == Some(IdParts(DefaultPrefix, e.iso[..4] + e.iso[5..7] + e.iso[8..10], RandomPart(e.uuidB)))
  {
    if WellShaped(e) then
      FreshIdsValidate("", e);
      FormState(FreshDraft("", e), map[], false)
    else
      FormState(FreshDraft("", e), map[], false)
  }

  /* ---------------------------------------------------------------------- */
  /* Editing                                                                */

  /** `errors[field]` is truthy: present and not the empty string. */
  predicate HasError(errors: map<string, string>, k: string)
  {
    k in errors && errors[k] != ""
  }

  /** `handleInputChange(field, value)`. */
  function HandleInputChange(st: FormState, f: Field, v: Input): (r: FormState)
    ensures Lookup(r.draft, f) == Some(v)
    ensures forall g :: g != f ==> Lookup(r.draft, g) == Lookup(st.draft, g)
    ensures r.draft.id == st.draft.id && r.draft.collectedDate == st.draft.collectedDate
    ensures r.draft.syncStatus == st.draft.syncStatus && r.showQR == st.showQR
    ensures Key(f) in r.errors <==> Key(f) in st.errors && st.errors[Key(f)] == ""
    ensures forall k :: k != Key(f) ==> (k in r.errors <==> k in st.errors)
    ensures forall k :: k in r.errors ==> k in st.errors && r.errors[k] == st.errors[k]
    ensures WellFormed(st.draft) && Fits(f, v) ==> WellFormed(r.draft)
  {
    var draft := st.draft.(fields := st.draft.fields[f := v]);
    var errors := if HasError(st.errors, Key(f)) then st.errors - {Key(f)} else st.errors;
    FormState(draft, errors, st.showQR)
  }

  const CollectorKey := "collectedBy"
  const CoordinatesKey := "coordinates"

  /** Proof helper: no field is stored under the "coordinates" error key. */
  lemma KeyNotCoordinates(f: Field)
    ensures Key(f) != CoordinatesKey
  {
    assert Key(f)[0] != 'c' || Key(f) == "commonName" || Key(f) == "collectedBy";
  }

  /** Editing a coordinate does not remove the coordinates error: no input is keyed that way. */
  lemma CoordinatesErrorSurvivesEdit(st: FormState, f: Field, v: Input)
    requires CoordinatesKey in st.errors
    ensures CoordinatesKey in HandleInputChange(st, f, v).errors
    ensures HandleInputChange(st, f, v).errors[CoordinatesKey] == st.errors[CoordinatesKey]
  {
    KeyNotCoordinates(f);
  }

  /** Typing in the collector input removes the collector error. */
  lemma EditClearsCollectorError(st: FormState, v: Input)
    requires HasError(st.errors, CollectorKey)
    ensures CollectorKey !in HandleInputChange(st, CollectedBy, v).errors
  {
  }

  /** What the geolocation hook reports; `None` is its `null`. */
  datatype Position = Position(latitude: Option<real>, longitude: Option<real>, altitude: Option<real>)

  /** A `number | null` that JavaScript treats as true: present and not zero. */
  predicate TruthyNumber(x: Option<real>)
  {
    x.Some? && x.value != 0.0
  }

  predicate IsPositionField(f: Field)
  {
    f == Latitude || f == Longitude || f == Altitude
  }

  function SetNumber(fields: map<Field, Input>, f: Field, x: Option<real>): map<Field, Input>
  {
    if x.Some? then fields[f := Number(x.value)] else fields - {f}
  }

  /**
   Proof helper: setting or clearing a numeric property writes just that property, and keeps
   a draft well formed.
   */
  lemma SetNumberEffect(d: Draft, f: Field, x: Option<real>)
    requires IsNumeric(f)
    ensures var d' := d.(fields := SetNumber(d.fields, f, x));
      && NumberField(d', f) == x && Lookup(d', f).None? == x.None?
      && (forall g :: g != f ==> Lookup(d', g) == Lookup(d, g))
      && (WellFormed(d) ==> WellFormed(d'))
  {
  }

  /**
   `useCurrentLocation`: copies the three position values only when latitude
   and longitude are both truthy; a missing altitude leaves the property unset.
   */
  function UseCurrentLocation(st: FormState, pos: Position): (r: FormState)
    ensures !(TruthyNumber(pos.latitude) && TruthyNumber(pos.longitude)) ==> r == st
    ensures TruthyNumber(pos.latitude) && TruthyNumber(pos.longitude) ==>
      && NumberField(r.draft, Latitude) == pos.latitude
      && NumberField(r.draft, Longitude) == pos.longitude
      && NumberField(r.draft, Altitude) == pos.altitude
      && Lookup(r.draft, Altitude).None? == pos.altitude.None?
    ensures forall g :: !IsPositionField(g) ==> Lookup(r.draft, g) == Lookup(st.draft, g)
    ensures r.draft.id == st.draft.id && r.errors == st.errors && r.showQR == st.showQR
    ensures r.draft.collectedDate == st.draft.collectedDate && r.draft.syncStatus == st.draft.syncStatus
    ensures WellFormed(st.draft) ==> WellFormed(r.draft)
  {
    if TruthyNumber(pos.latitude) && TruthyNumber(pos.longitude) then
      var d1 := st.draft.(fields := SetNumber(st.draft.fields, Latitude, pos.latitude));
      var d2 := d1.(fields := SetNumber(d1.fields, Longitude, pos.longitude));
      var d3 := d2.(fields := SetNumber(d2.fields, Altitude, pos.altitude));
      SetNumberEffect(st.draft, Latitude, pos.latitude);
      SetNumberEffect(d1, Longitude, pos.longitude);
      SetNumberEffect(d2, Altitude, pos.altitude);
      st.(draft := d3)
    else st
  }

  /** A reading on the equator or the prime meridian is not copied. */
  lemma EquatorPositionIgnored(st: FormState, lon: real, alt: Option<real>)
    ensures UseCurrentLocation(st, Position(Some(0.0), Some(lon), alt)) == st
    ensures UseCurrentLocation(st, Position(Some(lon), Some(0.0), alt)) == st
  {
  }

  /** `generateNewId`: one fresh id used for both `id` and `specimenNumber`. */
  function GenerateNewId(st: FormState, iso: string, uuid: string): (r: FormState)
    ensures TextField(r.draft, SpecimenNumber) == Some(r.draft.id)
    ensures IsIsoTimestamp(iso) && IsUuidPrefix(uuid) ==> ValidateSpecimenId(r.draft.id)
    ensures IsIsoTimestamp(iso) && IsUuidPrefix(uuid) ==>
      ParseSpecimenId(r.draft.id) == Some(IdParts(DefaultPrefix, iso[..4] + iso[5..7] + iso[8..10], RandomPart(uuid)))
    ensures forall g :: g != SpecimenNumber ==> Lookup(r.draft, g) == Lookup(st.draft, g)
    ensures r.errors == st.errors && r.showQR == st.showQR
    ensures r.draft.collectedDate == st.draft.collectedDate && r.draft.syncStatus == st.draft.syncStatus
    ensures WellFormed(st.draft) ==> WellFormed(r.draft)
  {
    var newId := GenerateDefaultSpecimenId(iso, uuid);
    var r := st.(draft := st.draft.(id := newId, fields := st.draft.fields[SpecimenNumber := Text(newId)]));
    if IsIsoTimestamp(iso) && IsUuidPrefix(uuid) then
      DefaultIdValidates(iso, uuid);
      GeneratedIdValidates(DefaultPrefix, iso, uuid);
      r
    else r
  }

  /* ---------------------------------------------------------------------- */
  /* Validation                                                             */

  const CollectorMessage := "Collector name is required"
  const FallbackCoordinatesMessage := "Invalid coordinates"

  /** The draft's collector is missing or whitespace only. */
  predicate CollectorMissing(d: Draft)
  {
    TextField(d, CollectedBy).None? || IsBlank(TextField(d, CollectedBy).value)
  }

  function CoordinatesVerdict(d: Draft): Verdict
  {
    ValidateCoordinates(NumberField(d, Latitude), NumberField(d, Longitude))
  }

  /** `!specimen.collectedBy?.trim()` is the missing-or-blank test. */
  lemma MissingIffTrimEmpty(d: Draft)
    ensures var c := TextField(d, CollectedBy);
      (c.None? || Trim(c.value) == "") <==> CollectorMissing(d)
  {
    if TextField(d, CollectedBy).Some? {
      TrimEmptyIffBlank(TextField(d, CollectedBy).value);
    }
  }

  /**
   `validateForm`: the errors it records; the form is valid exactly when there
   are none. The collector test is written as `CollectorMissing`, which
   `MissingIffTrimEmpty` shows to be the `trim()` test.
   */
  function ValidateForm(d: Draft): (errors: map<string, string>)
    ensures CollectorKey in errors <==> CollectorMissing(d)
    ensures CoordinatesKey in errors <==> CoordinatesVerdict(d).Invalid?
    ensures errors.Keys <= {CollectorKey, CoordinatesKey}
    ensures CollectorKey in errors ==> errors[CollectorKey] == CollectorMessage
    ensures CoordinatesKey in errors ==> errors[CoordinatesKey] == CoordinatesVerdict(d).message
    ensures errors == map[] <==> !CollectorMissing(d) && CoordinatesVerdict(d).Valid?
  {
    var missing := CollectorMissing(d);
    var e1: map<string, string> := if missing then map[CollectorKey := CollectorMessage] else map[];
    var v := CoordinatesVerdict(d);
    var e2 := if v.Invalid? then e1[CoordinatesKey := if v.message != "" then v.message else FallbackCoordinatesMessage] else e1;
    assert CollectorKey in e2 ==> missing;
    e2
  }

  /** Proof helper: blank padding around a name does not change whether it is blank. */
  lemma {:induction false} BlankPadding(pad: string, name: string)
    requires IsBlank(pad)
    ensures IsBlank(pad + name + pad) <==> IsBlank(name)
  {
    var padded := pad + name + pad;
    if !IsBlank(name) {
      var i :| 0 <= i < |name| && !IsWhitespace(name[i]);
      assert padded[|pad| + i] == name[i];
    }
  }

  /** Whitespace around the collector name does not matter to validation. */
  lemma CollectorPaddingIrrelevant(d: Draft, pad: string)
    requires IsBlank(pad) && TextField(d, CollectedBy).Some?
    ensures var name := TextField(d, CollectedBy).value;
      var d' := d.(fields := d.fields[CollectedBy := Text(pad + name + pad)]);
      ValidateForm(d') == ValidateForm(d)
  {
    var name := TextField(d, CollectedBy).value;
    var d' := d.(fields := d.fields[CollectedBy := Text(pad + name + pad)]);
    BlankPadding(pad, name);
    assert CollectorMissing(d') == CollectorMissing(d);
    assert CoordinatesVerdict(d') == CoordinatesVerdict(d);
  }

  /* ---------------------------------------------------------------------- */
  /* Saving                                                                 */

  function TextInput(x: Option<string>): Option<Input>
  {
    if x.Some? then Some(Text(x.value)) else None
  }

  function NumberInput(x: Option<real>): Option<Input>
  {
    if x.Some? then Some(Number(x.value)) else None
  }

  /** A stored record's property, read back in the form's terms. */
  function SpecimenValue(rec: Specimen, f: Field): Option<Input>
  {
    // the two required strings are stored unwrapped, the rest as options
    match f
    case SpecimenNumber => Some(Text(rec.specimenNumber))
    case CommonName => TextInput(rec.commonName)
    case ScientificName => TextInput(rec.scientificName)
    case CollectedBy => Some(Text(rec.collectedBy))
    case Latitude => NumberInput(rec.latitude)
    case Longitude => NumberInput(rec.longitude)
    case Altitude => NumberInput(rec.altitude)
    case LocationDescription => TextInput(rec.locationDescription)
    case Habitat => TextInput(rec.habitat)
    case Slope => TextInput(rec.slope)
    case Aspect => TextInput(rec.aspect)
    case SoilType => TextInput(rec.soilType)
    case Height => NumberInput(rec.height)
    case Diameter => NumberInput(rec.diameter)
    case Notes => TextInput(rec.notes)
  }

  /**
   The `fullSpecimen` literal in `handleSubmit`: the draft spread, then the
   collector, the collection date, a fresh modification date and pending status.
   */
  function Assemble(d: Draft, now: Date): (rec: Specimen)
    requires WellFormed(d)
    ensures rec.id == d.id && rec.collectedDate == d.collectedDate
    ensures rec.modifiedDate == now && rec.syncStatus == Pending
    ensures rec.qrCode.None? && rec.description.None? && rec.measurements.None? && rec.units.None?
    ensures rec.photos.None? && rec.tags.None? && rec.chainOfCustody.None? && rec.lastSyncDate.None?
  {
    Specimen(
      id := d.id,
      specimenNumber := TextField(d, SpecimenNumber).value,
      qrCode := None,
      commonName := TextField(d, CommonName),
      scientificName := TextField(d, ScientificName),
      description := None,
      latitude := NumberField(d, Latitude),
      longitude := NumberField(d, Longitude),
      altitude := NumberField(d, Altitude),
      locationDescription := TextField(d, LocationDescription),
      habitat := TextField(d, Habitat),
      slope := TextField(d, Slope),
      aspect := TextField(d, Aspect),
      soilType := TextField(d, SoilType),
      height := NumberField(d, Height),
      diameter := NumberField(d, Diameter),
      measurements := None,
      units := None,
      photos := None,
      collectedBy := CollectorOf(d),
      collectedDate := d.collectedDate,
      modifiedDate := now,
      notes := TextField(d, Notes),
      tags := None,
      chainOfCustody := None,
      syncStatus := Pending,
      lastSyncDate := None)
  }

  /** The record copies every property the draft holds, and only those. */
  lemma AssembleCopiesDraft(d: Draft, now: Date, f: Field)
    requires WellFormed(d)
    ensures SpecimenValue(Assemble(d, now), f) == Lookup(d, f)
  {
    if f in d.fields {
      assert Fits(f, d.fields[f]);
    }
    match f
    case SpecimenNumber =>
    case CollectedBy =>
    case _ =>
  }

  /** The status a draft carries does not reach the record. */
  lemma AssembleForcesPending(d: Draft, now: Date, s: SyncStatus)
    requires WellFormed(d)
    ensures Assemble(d.(syncStatus := s), now) == Assemble(d, now)
  {
  }

  datatype SubmitOutcome =
    | Rejected              // validation recorded errors; nothing was written
    | Saved(record: Specimen)
    | SaveFailed            // the store refused the record (its id is taken)

  datatype SubmitResult = SubmitResult(state: FormState, store: Store, outcome: SubmitOutcome)

  /** `handleSubmit`: validate, assemble, add, and on success reset the draft keeping the collector. */
  function HandleSubmit(st: FormState, store: Store, e: Entropy): (r: SubmitResult)
    requires WellFormed(st.draft)
    ensures r.state.errors == ValidateForm(st.draft)
    ensures r.outcome.Rejected? <==> r.state.errors != map[]
    ensures r.outcome.SaveFailed? <==> r.state.errors == map[] && st.draft.id in store
    ensures !r.outcome.Saved? ==> r.store == store && r.state.draft == st.draft && r.state.showQR == st.showQR
    ensures r.outcome.Saved? ==>
      && r.outcome.record == Assemble(st.draft, e.now)
      && r.outcome.record.id == st.draft.id
      && r.outcome.record.syncStatus == Pending
      && r.outcome.record.modifiedDate == e.now
      && r.store.Keys == store.Keys + {st.draft.id}
      && r.store[st.draft.id] == r.outcome.record
      && (forall k :: k in store ==> r.store[k] == store[k])
      && r.state.draft == FreshDraft(CollectorOf(st.draft), e)
      && !r.state.showQR
    ensures WellFormed(r.state.draft)
  {
    var errors := ValidateForm(st.draft);
    if errors != map[] then
      SubmitResult(st.(errors := errors), store, Rejected)
    else
      var rec := Assemble(st.draft, e.now);
      match Add(store, rec)
      case DuplicateKey => SubmitResult(st.(errors := errors), store, SaveFailed)
      case Added(store') =>
        SubmitResult(FormState(FreshDraft(CollectorOf(st.draft), e), errors, false), store', Saved(rec))
  }

  /** A record the form may write: a named collector, acceptable coordinates, pending. */
  predicate Admissible(rec: Specimen)
  {
    && !IsBlank(rec.collectedBy)
    && ValidateCoordinates(rec.latitude, rec.longitude).Valid?
    && rec.syncStatus == Pending
  }

  /** Every record is filed under its id and passed the form's checks when written. */
  predicate StorePolicy(store: Store)
  {
    KeyedById(store) && forall k :: k in store ==> Admissible(store[k])
  }

  /** Proof helper: a draft that passes validation assembles into an admissible record. */
  lemma AssembledAdmissible(d: Draft, now: Date)
    requires WellFormed(d) && !CollectorMissing(d) && CoordinatesVerdict(d).Valid?
    ensures Admissible(Assemble(d, now))
  {
    var rec := Assemble(d, now);
    AssembleCopiesDraft(d, now, CollectedBy);
    assert rec.latitude == NumberField(d, Latitude);
    assert rec.longitude == NumberField(d, Longitude);
  }

  /** An invalid form never reaches the store: submitting keeps the policy. */
  lemma SubmitKeepsPolicy(st: FormState, store: Store, e: Entropy)
    requires WellFormed(st.draft) && StorePolicy(store)
    ensures StorePolicy(HandleSubmit(st, store, e).store)
    ensures HandleSubmit(st, store, e).outcome.Saved? ==> Admissible(HandleSubmit(st, store, e).outcome.record)
  {
    var r := HandleSubmit(st, store, e);
    if r.outcome.Saved? {
      assert !CollectorMissing(st.draft) && CoordinatesVerdict(st.draft).Valid?;
      assert r.outcome.record == Assemble(st.draft, e.now);
      AssembledAdmissible(st.draft, e.now);
    }
  }

  /** Deleting keeps the policy. */
  lemma DeleteKeepsPolicy(store: Store, id: string)
    requires StorePolicy(store)
    ensures StorePolicy(Delete(store, id))
  {
  }

  /** A submit that saves leaves a draft whose fresh ids validate. */
  lemma SavedDraftIdsValidate(st: FormState, store: Store, e: Entropy)
    requires WellFormed(st.draft) && WellShaped(e)
    requires !CollectorMissing(st.draft) && CoordinatesVerdict(st.draft).Valid? && st.draft.id !in store
    ensures HandleSubmit(st, store, e).outcome.Saved?
    ensures var d := HandleSubmit(st, store, e).state.draft;
      ValidateSpecimenId(d.id) && ValidateSpecimenId(TextField(d, SpecimenNumber).value)
    ensures CollectorOf(HandleSubmit(st, store, e).state.draft) == CollectorOf(st.draft)
  {
    FreshIdsValidate(CollectorOf(st.draft), e);
  }

  /** The Clear Form button after the confirmation was answered with `confirmed`. */
  function ClearForm(st: FormState, confirmed: bool, e: Entropy): (r: FormState)
    ensures !confirmed ==> r == st
    ensures confirmed ==> r.draft == FreshDraft(CollectorOf(st.draft), e) && !r.showQR
    ensures confirmed ==> CollectorOf(r.draft) == CollectorOf(st.draft)
    ensures r.errors == st.errors
    ensures WellFormed(r.draft) || r == st
  {
    if confirmed then st.(draft := FreshDraft(CollectorOf(st.draft), e), showQR := false) else st
  }

  /** Every transition keeps the draft well formed, so `Assemble` can always be reached. */
  lemma TransitionsKeepWellFormed(st: FormState, f: Field, v: Input, pos: Position, e: Entropy, store: Store, confirmed: bool)
    requires WellFormed(st.draft) && Fits(f, v)
    ensures WellFormed(HandleInputChange(st, f, v).draft)
    ensures WellFormed(UseCurrentLocation(st, pos).draft)
    ensures WellFormed(GenerateNewId(st, e.iso, e.uuidA).draft)
    ensures WellFormed(HandleSubmit(st, store, e).state.draft)
    ensures WellFormed(ClearForm(st, confirmed, e).draft)
  {
  }
}

=== FILE: specimen_list.dfy ===
/**
 The specimen browser: loads every stored record newest first, filters by a
 case-insensitive query over four properties, deletes with a re-fetch, and
 exports the loaded list.
 */
module SpecimenList {
  import opened SpecimenTypes
  import opened Strings
  import opened SpecimenStore
  import IdGenerator

  datatype ListState = ListState(
    specimens: seq<Specimen>,   // the loaded list, newest first
    filter: string,             // the search box
    selected: Option<Specimen>) // the record shown in the detail panel

  /* ---------------------------------------------------------------------- */
  /* Newest first                                                           */

  ghost predicate SortedByDateDesc(s: seq<Specimen>)
  {
    forall i, j :: 0 <= i < j < |s| ==> s[i].collectedDate >= s[j].collectedDate
  }

  /** Proof helper: a record no older than the head of a newest-first list can go in front of it. */
  lemma ConsSorted(h: Specimen, t: seq<Specimen>)
    requires SortedByDateDesc(t)
    requires t == [] || h.collectedDate >= t[0].collectedDate
    ensures SortedByDateDesc([h] + t)
  {
    var r := [h] + t;
    forall i, j | 0 <= i < j < |r|
      ensures r[i].collectedDate >= r[j].collectedDate
    {
      if i == 0 {
        assert r[j] == t[j - 1];
      } else {
        assert r[i] == t[i - 1] && r[j] == t[j - 1];
      }
    }
  }

  /** Places `x` before the first record that is not newer, so ties keep `x` first. */
  function InsertByDate(x: Specimen, s: seq<Specimen>): (r: seq<Specimen>)
    requires SortedByDateDesc(s)
    ensures SortedByDateDesc(r)
    ensures multiset(r) == multiset(s) + multiset{x}
    ensures r != [] && (r[0] == x || (s != [] && r[0] == s[0]))
  {
    if s == [] || s[0].collectedDate <= x.collectedDate then
      ConsSorted(x, s);
      [x] + s
    else
      assert s == [s[0]] + s[1..];
      var rest := InsertByDate(x, s[1..]);
      assert rest[0] == x || rest[0] == s[1];
      ConsSorted(s[0], rest);
      [s[0]] + rest
  }

  /**
   `sort((a, b) => b.collectedDate - a.collectedDate)`: a stable sort by
   non-increasing collection date.
   */
  function SortByDateDesc(s: seq<Specimen>): (r: seq<Specimen>)
    ensures SortedByDateDesc(r)
    ensures multiset(r) == multiset(s)
  {
    if s == [] then []
    else
      assert s == [s[0]] + s[1..];
      InsertByDate(s[0], SortByDateDesc(s[1..]))
  }

  /** The records collected at instant `d`, in their order in `s`. */
  function WithDate(s: seq<Specimen>, d: Date): seq<Specimen>
  {
    if s == [] then [] else (if s[0].collectedDate == d then [s[0]] else []) + WithDate(s[1..], d)
  }

  /** Proof helper: one step of `WithDate` on a list with a known head. */
  lemma WithDateCons(h: Specimen, t: seq<Specimen>, d: Date)
    ensures WithDate([h] + t, d) == (if h.collectedDate == d then [h] else []) + WithDate(t, d)
  {
    assert ([h] + t)[1..] == t;
  }

  /** Proof helper: two blocks of which one is empty can trade places. */
  lemma SwapSingletons(a: seq<Specimen>, b: seq<Specimen>, w: seq<Specimen>)
    requires a == [] || b == []
    ensures a + (b + w) == b + (a + w)
  {
    if a == [] {
      assert a + (b + w) == b + w == b + (a + w);
    } else {
      assert a + (b + w) == a + w == b + (a + w);
    }
  }

  /** Proof helper: a record older than the head goes behind it. */
  lemma InsertPassesNewer(x: Specimen, s: seq<Specimen>)
    requires SortedByDateDesc(s) && s != [] && s[0].collectedDate > x.collectedDate
    ensures SortedByDateDesc(s[1..])
    ensures InsertByDate(x, s) == [s[0]] + InsertByDate(x, s[1..])
  {
  }

  /** Proof helper: inserting a record adds it, and only it, to the records of its date. */
  lemma {:induction false} InsertWithDate(x: Specimen, s: seq<Specimen>, d: Date)
    requires SortedByDateDesc(s)
    ensures WithDate(InsertByDate(x, s), d)
         == (if x.collectedDate == d then [x] else []) + WithDate(s, d)
  {
    if s == [] || s[0].collectedDate <= x.collectedDate {
      WithDateCons(x, s, d);
    } else {
      var rest := InsertByDate(x, s[1..]);
      InsertPassesNewer(x, s);
      InsertWithDate(x, s[1..], d);
      WithDateCons(s[0], rest, d);
      assert s == [s[0]] + s[1..];
      WithDateCons(s[0], s[1..], d);
      // x is strictly older than s[0], so at most one of the two has date d
      SwapSingletons(if s[0].collectedDate == d then [s[0]] else [],
                     if x.collectedDate == d then [x] else [],
                     WithDate(s[1..], d));
    }
  }

  /** The sort is stable: records with equal dates keep their fetched order. */
  lemma {:induction false} SortIsStable(s: seq<Specimen>, d: Date)
    ensures WithDate(SortByDateDesc(s), d) == WithDate(s, d)
  {
    if s != [] {
      SortIsStable(s[1..], d);
      InsertWithDate(s[0], SortByDateDesc(s[1..]), d);
    }
  }

  /** `loadSpecimens` / the initial fetch: the stored records, newest first. */
  method LoadSpecimens(state: ListState, store: Store) returns (r: ListState)
    requires KeyedById(store)
    ensures Lists(store, r.specimens) && SortedByDateDesc(r.specimens)
    ensures r.filter == state.filter && r.selected == state.selected
  {
    var all := ToArray(store);
    var sorted := SortByDateDesc(all);
    ListsPermutation(store, all, sorted);
    r := state.(specimens := sorted);
  }

  /* ---------------------------------------------------------------------- */
  /* Search                                                                 */

  /** The `filteredSpecimens` predicate. */
  predicate MatchesQuery(s: Specimen, query: string)
  {
    var q := ToLower(query);
    || Contains(ToLower(s.specimenNumber), q)
    || (s.commonName.Some? && Contains(ToLower(s.commonName.value), q))
    || (s.scientificName.Some? && Contains(ToLower(s.scientificName.value), q))
    || Contains(ToLower(s.collectedBy), q)
  }

  /** `specimens.filter(...)`: the matching records, in list order. */
  function FilterSpecimens(list: seq<Specimen>, query: string): (r: seq<Specimen>)
    ensures forall x :: x in r <==> x in list && MatchesQuery(x, query)
    ensures |r| <= |list|
  {
    if list == [] then []
    else
      assert list == [list[0]] + list[1..];
      (if MatchesQuery(list[0], query) then [list[0]] else []) + FilterSpecimens(list[1..], query)
  }

  /** What the grid shows. */
  function Visible(state: ListState): seq<Specimen>
  {
    FilterSpecimens(state.specimens, state.filter)
  }

  /** `a` is `b` with some elements left out, order kept. */
  ghost predicate IsSubsequence(a: seq<Specimen>, b: seq<Specimen>)
    decreases |b|
  {
    if a == [] then true
    else if b == [] then false
    else (a[0] == b[0] && IsSubsequence(a[1..], b[1..])) || IsSubsequence(a, b[1..])
  }

  lemma {:induction false} FilterIsSubsequence(list: seq<Specimen>, query: string)
    ensures IsSubsequence(FilterSpecimens(list, query), list)
  {
    if list != [] {
      FilterIsSubsequence(list[1..], query);
      var rest := FilterSpecimens(list[1..], query);
      if MatchesQuery(list[0], query) {
        assert FilterSpecimens(list, query) == [list[0]] + rest;
        assert ([list[0]] + rest)[1..] == rest;
      } else {
        assert FilterSpecimens(list, query) == rest;
      }
    }
  }

  /** An empty search box shows every loaded record. */
  lemma {:induction false} EmptyQueryKeepsAll(list: seq<Specimen>)
    ensures FilterSpecimens(list, "") == list
  {
    if list != [] {
      ContainsEmpty(ToLower(list[0].specimenNumber));
      EmptyQueryKeepsAll(list[1..]);
    }
  }

  /**
   The search ignores the case of an ASCII query's letters. Beyond ASCII the
   program's case maps can change length (`"ß".toUpperCase()` is `"SS"`).
   */
  lemma QueryCaseInsensitive(s: Specimen, query: string)
    requires forall i :: 0 <= i < |query| ==> query[i] as int < 128
    ensures MatchesQuery(s, ToUpper(query)) <==> MatchesQuery(s, query)
  {
    LowerOfUpper(query);
  }

  /* ---------------------------------------------------------------------- */
  /* Delete                                                                 */

  predicate IsSelected(state: ListState, id: string)
  {
    state.selected.Some? && state.selected.value.id == id
  }

  /**
   `deleteSpecimen(id)` after the user answered the confirmation with
   `confirmed`: delete, re-fetch, and drop the selection if it was that record.
   */
  method DeleteSpecimen(state: ListState, store: Store, id: string, confirmed: bool)
    returns (r: ListState, store': Store)
    requires KeyedById(store)
    ensures !confirmed ==> r == state && store' == store
    ensures confirmed ==> store' == Delete(store, id)
    ensures confirmed ==> Lists(store', r.specimens) && SortedByDateDesc(r.specimens)
    ensures confirmed ==> forall i :: 0 <= i < |r.specimens| ==> r.specimens[i].id != id
    ensures confirmed && IsSelected(state, id) ==> r.selected.None?
    ensures !(confirmed && IsSelected(state, id)) ==> r.selected == state.selected
    ensures r.filter == state.filter
  {
    if !confirmed {
      return state, store;
    }
    store' := Delete(store, id);
    r := LoadSpecimens(state, store');
    if IsSelected(state, id) {
      r := r.(selected := None);
    }
  }

  /* ---------------------------------------------------------------------- */
  /* Export                                                                 */

  datatype ExportFile = ExportFile(name: string, records: seq<Specimen>)

  const ExportPrefix := "specimens-export-"

  /** `specimens-export-${new Date().toISOString().slice(0, 10)}.json`. */
  function ExportFileName(iso: string): (name: string)
    ensures |name| >= 22 && name[..17] == ExportPrefix && name[|name| - 5..] == ".json"
    ensures |iso| >= 10 ==> |name| == 32 && name[17..27] == iso[..10]
  {
    ExportPrefix + Take(iso, 10) + ".json"
  }

  /** `exportData`: the loaded list, not the filtered one. */
  function ExportData(state: ListState, iso: string): ExportFile
  {
    ExportFile(ExportFileName(iso), state.specimens)
  }

  /** The export does not depend on the search box, and covers what it shows. */
  lemma ExportIgnoresFilter(state: ListState, query: string, iso: string)
    ensures ExportData(state.(filter := query), iso) == ExportData(state, iso)
    ensures |ExportData(state, iso).records| == |state.specimens|
    ensures IsSubsequence(Visible(state), ExportData(state, iso).records)
  {
    FilterIsSubsequence(state.specimens, state.filter);
  }

  /** A record the filter hides is still exported. */
  lemma ExportIncludesHidden(state: ListState, iso: string, x: Specimen)
    requires x in state.specimens && !MatchesQuery(x, state.filter)
    ensures x !in Visible(state)
    ensures x in ExportData(state, iso).records
  {
  }

  /** The file name carries the same calendar date an identifier made then carries. */
  lemma ExportDateMatchesIdDate(iso: string)
    requires IdGenerator.IsIsoTimestamp(iso)
    ensures RemoveAll(ExportFileName(iso)[17..27], '-') == IdGenerator.DateStamp(iso)
  {
  }
}

=== FILE: specimen_store.dfy ===
/**
 The local specimen table as an abstract keyed map. Its primary key is the
 record's own `id`; `add` refuses a key that is already present and `delete`
 of an absent key does nothing.
 */
module SpecimenStore {
  import opened SpecimenTypes

  type Store = map<string, Specimen>

  /** Every record is filed under its own id, as an inbound primary key makes it. */
  predicate KeyedById(store: Store)
  {
    forall k :: k in store ==> store[k].id == k
  }

  datatype AddResult = Added(store: Store) | DuplicateKey

  /** `db.specimens.add(record)`. */
  function Add(store: Store, rec: Specimen): (r: AddResult)
    ensures r.DuplicateKey? <==> rec.id in store
    ensures r.Added? ==> r.store.Keys == store.Keys + {rec.id} && r.store[rec.id] == rec
    ensures r.Added? ==> forall k :: k in store ==> r.store[k] == store[k]
    ensures r.Added? && KeyedById(store) ==> KeyedById(r.store)
  {
    if rec.id in store then DuplicateKey else Added(store[rec.id := rec])
  }

  /** `db.specimens.delete(id)`. */
  function Delete(store: Store, id: string): (r: Store)
    ensures r.Keys == store.Keys - {id}
    ensures forall k :: k in r ==> r[k] == store[k]
    ensures KeyedById(store) ==> KeyedById(r)
  {
    store - {id}
  }

  /** Deleting twice leaves what deleting once left. */
  lemma DeleteIdempotent(store: Store, id: string)
    ensures Delete(Delete(store, id), id) == Delete(store, id)
  {
  }

  /** A second record with a taken id is refused and the first one stays. */
  lemma DuplicateAddKeepsFirst(store: Store, first: Specimen, second: Specimen)
    requires first.id !in store && second.id == first.id
    ensures Add(store, first).Added?
    ensures Add(Add(store, first).store, second).DuplicateKey?
    ensures Add(store, first).store[first.id] == first
  {
  }

  /** `arr` holds exactly the stored records, as many as there are keys. */
  ghost predicate Lists(store: Store, arr: seq<Specimen>)
  {
    && |arr| == |store|
    && (forall i :: 0 <= i < |arr| ==> arr[i].id in store && store[arr[i].id] == arr[i])
    && (forall k :: k in store ==> store[k] in arr)
  }

  /**
   `db.specimens.toArray()`: every stored record once, in an order the model
   leaves open.
   */
  method ToArray(store: Store) returns (arr: seq<Specimen>)
    requires KeyedById(store)
    ensures Lists(store, arr)
    ensures forall i, j :: 0 <= i < j < |arr| ==> arr[i].id != arr[j].id
  {
    arr := [];
    var rest := store.Keys;
    while rest != {}
      invariant rest <= store.Keys
      invariant |arr| + |rest| == |store.Keys|
      invariant forall i :: 0 <= i < |arr| ==> arr[i].id in store && arr[i].id !in rest && store[arr[i].id] == arr[i]
      invariant forall k :: k in store && k !in rest ==> store[k] in arr
      invariant forall i, j :: 0 <= i < j < |arr| ==> arr[i].id != arr[j].id
      decreases rest
    {
      var k :| k in rest;
      arr := arr + [store[k]];
      rest := rest - {k};
    }
  }

  /** Lists is about contents, not order: any permutation lists the same store. */
  lemma ListsPermutation(store: Store, a: seq<Specimen>, b: seq<Specimen>)
    requires Lists(store, a) && multiset(a) == multiset(b)
    ensures Lists(store, b)
  {
    assert |b| == |multiset(b)| == |multiset(a)| == |a|;
    forall i | 0 <= i < |b|
      ensures b[i].id in store && store[b[i].id] == b[i]
    {
      assert b[i] in multiset(b);
      assert b[i] in a;
    }
    forall k | k in store
      ensures store[k] in b
    {
      assert store[k] in multiset(a);
    }
  }

  /** Inserting a record and listing the store yields that record. */
  lemma AddThenList(store: Store, rec: Specimen, arr: seq<Specimen>)
    requires rec.id !in store
    requires Lists(Add(store, rec).store, arr)
    ensures rec in arr
  {
  }
}

=== FILE: specimen_types.dfy ===
/**
 The data model of the field-research application: specimen records, their
 chain-of-custody entries, validation rules and safety checkpoints, with the
 closed string enumerations as datatypes whose wire names round-trip.
 */
module SpecimenTypes {

  datatype Option<+T> = None | Some(value: T)

  /** A JavaScript `Date`, as the milliseconds `getTime()` returns. */
  type Date = int

  /* ---------------------------------------------------------------------- */
  /* Sync status: 'pending' | 'synced' | 'error'                            */

  datatype SyncStatus = Pending | Synced | Error

  function SyncStatusName(s: SyncStatus): string
  {
    match s
    case Pending => "pending"
    case Synced => "synced"
    case Error => "error"
  }

  /** Reads a stored status name; only the three names are accepted. */
  function ParseSyncStatus(name: string): (r: Option<SyncStatus>)
    ensures r.Some? ==> SyncStatusName(r.value) == name
    ensures r.None? ==> forall s :: SyncStatusName(s) != name
  {
    if name == "pending" then Some(Pending)
    else if name == "synced" then Some(Synced)
    else if name == "error" then Some(Error)
    else None
  }

  lemma SyncStatusRoundTrip(s: SyncStatus)
    ensures ParseSyncStatus(SyncStatusName(s)) == Some(s)
  {
  }

  /* ---------------------------------------------------------------------- */
  /* Chain of custody                                                       */

  datatype CustodyAction = Collected | Transferred | Processed | Stored | Analyzed

  function CustodyActionName(a: CustodyAction): string
  {
    match a
    case Collected => "collected"
    case Transferred => "transferred"
    case Processed => "processed"
    case Stored => "stored"
    case Analyzed => "analyzed"
  }

  function ParseCustodyAction(name: string): (r: Option<CustodyAction>)
    ensures r.Some? ==> CustodyActionName(r.value) == name
    ensures r.None? ==> forall a :: CustodyActionName(a) != name
  {
    if name == "collected" then Some(Collected)
    else if name == "transferred" then Some(Transferred)
    else if name == "processed" then Some(Processed)
    else if name == "stored" then Some(Stored)
    else if name == "analyzed" then Some(Analyzed)
    else None
  }

  lemma CustodyActionRoundTrip(a: CustodyAction)
    ensures ParseCustodyAction(CustodyActionName(a)) == Some(a)
  {
  }

  datatype ChainOfCustodyEntry = ChainOfCustodyEntry(
    id: string,
    timestamp: Date,
    action: CustodyAction,
    person: string,
    location: Option<string>,
    notes: Option<string>)

  /* ---------------------------------------------------------------------- */
  /* The specimen record                                                    */

  /**
   A persisted specimen. The six properties without `Option` are the ones the
   record type requires; every other property is optional.
   */
  datatype Specimen = Specimen(
    id: string,
    specimenNumber: string,
    qrCode: Option<string>,
    // basic information
    commonName: Option<string>,
    scientificName: Option<string>,
    description: Option<string>,
    // location
    latitude: Option<real>,
    longitude: Option<real>,
    altitude: Option<real>,
    locationDescription: Option<string>,
    // environment
    habitat: Option<string>,
    slope: Option<string>,
    aspect: Option<string>,
    soilType: Option<string>,
    // measurements
    height: Option<real>,
    diameter: Option<real>,
    measurements: Option<map<string, real>>,
    units: Option<string>,
    // media
    photos: Option<seq<string>>,
    // metadata
    collectedBy: string,
    collectedDate: Date,
    modifiedDate: Date,
    notes: Option<string>,
    tags: Option<seq<string>>,
    chainOfCustody: Option<seq<ChainOfCustodyEntry>>,
    // synchronisation
    syncStatus: SyncStatus,
    lastSyncDate: Option<Date>)

  /* ---------------------------------------------------------------------- */
  /* Validation rules                                                       */

  datatype RuleType = Required | Range | Pattern | Custom

  function RuleTypeName(t: RuleType): string
  {
    match t
    case Required => "required"
    case Range => "range"
    case Pattern => "pattern"
    case Custom => "custom"
  }

  function ParseRuleType(name: string): (r: Option<RuleType>)
    ensures r.Some? ==> RuleTypeName(r.value) == name
    ensures r.None? ==> forall t :: RuleTypeName(t) != name
  {
    if name == "required" then Some(Required)
    else if name == "range" then Some(Range)
    else if name == "pattern" then Some(Pattern)
    else if name == "custom" then Some(Custom)
    else None
  }

  lemma RuleTypeRoundTrip(t: RuleType)
    ensures ParseRuleType(RuleTypeName(t)) == Some(t)
  {
  }

  /**
   A JavaScript value as a generic validator receives it (`unknown`).
   `Other(text)` is any object, array or function; `text` is what `String()`
   makes of it.
   */
  datatype Value =
    | Undefined
    | Null
    | Bool(b: bool)
    | Num(x: real)
    | NaN
    | Str(s: string)
    | Other(text: string)

  /** JavaScript truthiness: `undefined`, `null`, `false`, `0`, `NaN` and `""` are falsy. */
  predicate Truthy(v: Value)
  {
    match v
    case Undefined => false
    case Null => false
    case Bool(b) => b
    case Num(x) => x != 0.0
    case NaN => false
    case Str(s) => s != ""
    case Other(_) => true
  }

  /**
   A validation rule. A regular expression is modelled by the predicate its
   `test` computes, a custom validator by the predicate it is; both are
   optional, as are the numeric bounds.
   */
  datatype ValidationRule = ValidationRule(
    field: string,
    kind: RuleType,
    message: string,
    validator: Option<Value -> bool>,
    min: Option<real>,
    max: Option<real>,
    pattern: Option<string -> bool>)

  /* ---------------------------------------------------------------------- */
  /* Field safety checkpoints                                               */

  datatype CheckpointStatus = Ok | Alert | Emergency

  function CheckpointStatusName(s: CheckpointStatus): string
  {
    match s
    case Ok => "ok"
    case Alert => "alert"
    case Emergency => "emergency"
  }

  function ParseCheckpointStatus(name: string): (r: Option<CheckpointStatus>)
    ensures r.Some? ==> CheckpointStatusName(r.value) == name
    ensures r.None? ==> forall s :: CheckpointStatusName(s) != name
  {
    if name == "ok" then Some(Ok)
    else if name == "alert" then Some(Alert)
    else if name == "emergency" then Some(Emergency)
    else None
  }

  lemma CheckpointStatusRoundTrip(s: CheckpointStatus)
    ensures ParseCheckpointStatus(CheckpointStatusName(s)) == Some(s)
  {
  }

  datatype GeoPoint = GeoPoint(latitude: real, longitude: real)

  datatype FieldSafetyCheckpoint = FieldSafetyCheckpoint(
    id: string,
    timestamp: Date,
    location: Option<GeoPoint>,
    status: CheckpointStatus,
    notes: Option<string>,
    userId: string)
}

=== FILE: strings.dfy ===
/**
 String operations with the JavaScript meaning the application relies on:
 `trim`, ASCII case mapping, `includes`, `padStart`, `join`, and the decimal
 rendering of integers that `String(n)` produces.
 */
module Strings {

  /* ---------------------------------------------------------------------- */
  /* Whitespace and trim                                                    */

  /** The ECMAScript WhiteSpace and LineTerminator code points, which `trim` removes. */
  predicate IsWhitespace(c: char)
  {
    || c == '\t' || c == '\n' || c == '\U{000B}' || c == '\U{000C}' || c == '\r' || c == ' '
    || c == '\U{00A0}' || c == '\U{1680}' || ('\U{2000}' <= c <= '\U{200A}')
    || c == '\U{2028}' || c == '\U{2029}' || c == '\U{202F}' || c == '\U{205F}'
    || c == '\U{3000}' || c == '\U{FEFF}'
  }

  /** Every character is whitespace (vacuously so for the empty string). */
  predicate IsBlank(s: string)
  {
    forall i :: 0 <= i < |s| ==> IsWhitespace(s[i])
  }

  /** Proof helper: a whitespace character in front of blank text keeps it blank. */
  lemma BlankCons(c: char, x: string)
    requires IsWhitespace(c) && IsBlank(x)
    ensures IsBlank([c] + x)
  {
    assert forall i :: 0 < i <= |x| ==> ([c] + x)[i] == x[i - 1];
  }

  /** Proof helper: a whitespace character after blank text keeps it blank. */
  lemma BlankSnoc(x: string, c: char)
    requires IsBlank(x) && IsWhitespace(c)
    ensures IsBlank(x + [c])
  {
    assert forall i :: 0 <= i < |x| ==> (x + [c])[i] == x[i];
  }

  /** Proof helper: a suffix of `s[1..]` after blanks is a suffix of `s` after blanks when `s[0]` is blank. */
  lemma SkipLeadingBlank(s: string, r: string)
    requires s != [] && IsWhitespace(s[0])
    requires |r| <= |s| - 1 && r == s[1..][|s| - 1 - |r|..] && IsBlank(s[1..][..|s| - 1 - |r|])
    ensures r == s[|s| - |r|..] && IsBlank(s[..|s| - |r|])
  {
    var k := |s| - |r|;
    assert s[1..][k - 1..] == s[k..];
    assert s[..k] == [s[0]] + s[1..][..k - 1];
    BlankCons(s[0], s[1..][..k - 1]);
  }

  /** Proof helper: the mirror of `SkipLeadingBlank` for a blank last character. */
  lemma SkipTrailingBlank(s: string, r: string)
    requires s != [] && IsWhitespace(s[|s| - 1])
    requires |r| <= |s| - 1 && r == s[..|s| - 1][..|r|] && IsBlank(s[..|s| - 1][|r|..])
    ensures r == s[..|r|] && IsBlank(s[|r|..])
  {
    assert s[..|s| - 1][..|r|] == s[..|r|];
    assert s[|r|..] == s[..|s| - 1][|r|..] + [s[|s| - 1]];
    BlankSnoc(s[..|s| - 1][|r|..], s[|s| - 1]);
  }

  function TrimStart(s: string): (r: string)
    ensures |r| <= |s| && r == s[|s| - |r|..]
    ensures IsBlank(s[..|s| - |r|])
    ensures r != [] ==> !IsWhitespace(r[0])
  {
    if s != [] && IsWhitespace(s[0]) then
      var r := TrimStart(s[1..]);
      SkipLeadingBlank(s, r);
      r
    else s
  }

  /** Proof helper: one step of `TrimStart` on a leading whitespace character. */
  lemma TrimStartSkips(c: char, s: string)
    requires IsWhitespace(c)
    ensures TrimStart([c] + s) == TrimStart(s)
  {
    assert ([c] + s)[1..] == s;
  }

  /** Proof helper: `TrimStart` leaves a string that starts with a visible character alone. */
  lemma TrimStartStops(c: char, s: string)
    requires !IsWhitespace(c)
    ensures TrimStart([c] + s) == [c] + s
  {
  }

  function TrimEnd(s: string): (r: string)
    ensures |r| <= |s| && r == s[..|r|]
    ensures IsBlank(s[|r|..])
    ensures r != [] ==> !IsWhitespace(r[|r| - 1])
  {
    if s != [] && IsWhitespace(s[|s| - 1]) then
      var r := TrimEnd(s[..|s| - 1]);
      SkipTrailingBlank(s, r);
      r
    else s
  }

  /** `r` sits at offset `i` of `s` with nothing but whitespace around it. */
  predicate TrimmedAt(s: string, r: string, i: int)
  {
    0 <= i && i + |r| <= |s| && s[i..i + |r|] == r && IsBlank(s[..i]) && IsBlank(s[i + |r|..])
  }

  /** Proof helper: slices of a suffix are slices of the whole at shifted offsets. */
  lemma SlicesOfSuffix(s: string, i: int, j: int)
    requires 0 <= i && 0 <= j && i + j <= |s|
    ensures s[i..][..j] == s[i..i + j] && s[i..][j..] == s[i + j..]
  {
  }

  /** Proof helper: blankness carries over to an equal string. */
  lemma BlankSame(x: string, y: string)
    requires IsBlank(x) && x == y
    ensures IsBlank(y)
  {
  }

  /**
   Proof helper: a blank-led suffix `t` of `s` whose blank-trailed prefix is `r` leaves `r`
   where `t` starts.
   */
  lemma TrimmedAtOf(s: string, t: string, r: string)
    requires |t| <= |s| && t == s[|s| - |t|..] && IsBlank(s[..|s| - |t|])
    requires |r| <= |t| && r == t[..|r|] && IsBlank(t[|r|..])
    ensures TrimmedAt(s, r, |s| - |t|)
  {
    var i := |s| - |t|;
    SlicesOfSuffix(s, i, |r|);
    assert IsBlank(s[..i]);
    assert s[i..i + |r|] == r;
    BlankSame(t[|r|..], s[i + |r|..]);
    assert IsBlank(s[i + |r|..]);
  }

  /** `String.prototype.trim`. */
  function Trim(s: string): (r: string)
    ensures r != [] ==> !IsWhitespace(r[0]) && !IsWhitespace(r[|r| - 1])
    ensures exists i :: TrimmedAt(s, r, i)
  {
    TrimmedAtOf(s, TrimStart(s), TrimEnd(TrimStart(s)));
    TrimEnd(TrimStart(s))
  }

  /** `s.trim()` is falsy exactly when `s` is whitespace only. */
  lemma TrimEmptyIffBlank(s: string)
    ensures Trim(s) == [] <==> IsBlank(s)
  {
    var r := Trim(s);
    var i :| TrimmedAt(s, r, i);
    if r == [] {
      assert s == s[..i] + s[i..];
    } else {
      assert s[i] == r[0];
    }
  }

  /** Trimming twice is trimming once. */
  lemma TrimIdempotent(s: string)
    ensures Trim(Trim(s)) == Trim(s)
  {
  }

  /* ---------------------------------------------------------------------- */
  /* Case mapping (ASCII letters only)                                      */

  function LowerChar(c: char): char
  {
    if 'A' <= c <= 'Z' then (c as int + 32) as char else c
  }

  function UpperChar(c: char): char
  {
    if 'a' <= c <= 'z' then (c as int - 32) as char else c
  }

  function ToLower(s: string): (r: string)
    ensures |r| == |s|
    ensures forall i :: 0 <= i < |s| ==> !IsUpperLetter(r[i]) && (IsUpperLetter(s[i]) || r[i] == s[i])
    ensures forall i :: 0 <= i < |s| && IsUpperLetter(s[i]) ==>
      IsLowerLetter(r[i]) && r[i] as int - s[i] as int == 'a' as int - 'A' as int
  {
    seq(|s|, i requires 0 <= i < |s| => LowerChar(s[i]))
  }

  function ToUpper(s: string): (r: string)
    ensures |r| == |s|
    ensures forall i :: 0 <= i < |s| ==> !IsLowerLetter(r[i]) && (IsLowerLetter(s[i]) || r[i] == s[i])
    ensures forall i :: 0 <= i < |s| && IsLowerLetter(s[i]) ==>
      IsUpperLetter(r[i]) && s[i] as int - r[i] as int == 'a' as int - 'A' as int
  {
    seq(|s|, i requires 0 <= i < |s| => UpperChar(s[i]))
  }

  /** For ASCII text, lower-casing forgets a prior upper-casing. */
  lemma LowerOfUpper(q: string)
    requires forall i :: 0 <= i < |q| ==> q[i] as int < 128
    ensures ToLower(ToUpper(q)) == ToLower(q)
  {
  }

  /* ---------------------------------------------------------------------- */
  /* Substrings                                                             */

  predicate OccursAt(hay: string, needle: string, i: int)
  {
    0 <= i && i + |needle| <= |hay| && hay[i..i + |needle|] == needle
  }

  /** `hay.includes(needle)`. */
  predicate Contains(hay: string, needle: string)
  {
    exists i | 0 <= i <= |hay| - |needle| :: OccursAt(hay, needle, i)
  }

  /** Every string includes the empty string. */
  lemma ContainsEmpty(hay: string)
    ensures Contains(hay, "")
  {
    assert OccursAt(hay, "", 0);
  }

  function Take(s: string, n: nat): (r: string)
    ensures |r| <= n && r <= s
    ensures |s| >= n ==> |r| == n
    ensures |s| < n ==> r == s
  {
    if |s| <= n then s else s[..n]
  }

  /** `s.replace(/c/g, '')` for a single character `c`. */
  function RemoveAll(s: string, c: char): (r: string)
    ensures c !in r
  {
    if s == [] then [] else (if s[0] == c then [] else [s[0]]) + RemoveAll(s[1..], c)
  }

  lemma {:induction false} RemoveAllAppend(a: string, b: string, c: char)
    ensures RemoveAll(a + b, c) == RemoveAll(a, c) + RemoveAll(b, c)
  {
    if a != [] {
      assert (a + b)[1..] == a[1..] + b;
      RemoveAllAppend(a[1..], b, c);
    } else {
      assert a + b == b;
    }
  }

  lemma {:induction false} RemoveAllAbsent(s: string, c: char)
    requires c !in s
    ensures RemoveAll(s, c) == s
  {
    if s != [] {
      RemoveAllAbsent(s[1..], c);
    }
  }

  /** `s.replace(c, d)` with a one-character string pattern: only the first occurrence. */
  function ReplaceFirst(s: string, c: char, d: char): (r: string)
    ensures |r| == |s|
    ensures c !in s ==> r == s
  {
    if s == [] then []
    else if s[0] == c then [d] + s[1..]
    else [s[0]] + ReplaceFirst(s[1..], c, d)
  }

  /** Only the first occurrence is replaced: everything after it is kept as it was. */
  lemma {:induction false} ReplaceFirstSplits(s: string, c: char, d: char, i: int)
    requires 0 <= i < |s| && s[i] == c && c !in s[..i]
    ensures ReplaceFirst(s, c, d) == s[..i] + [d] + s[i + 1..]
  {
    if i == 0 {
      assert s[..0] + [d] + s[1..] == [d] + s[1..];
    } else {
      var t := s[1..];
      assert s[..i][0] == s[0];
      assert s[0] != c;
      assert ReplaceFirst(s, c, d) == [s[0]] + ReplaceFirst(t, c, d);
      assert t[..i - 1] == s[..i][1..];
      ReplaceFirstSplits(t, c, d, i - 1);
      assert t[i..] == s[i + 1..];
      assert s[..i] + [d] + s[i + 1..] == [s[0]] + (t[..i - 1] + [d] + t[i..]);
    }
  }

  /** `parts.join(sep)`. */
  function Join(parts: seq<string>, sep: string): string
  {
    if |parts| == 0 then ""
    else if |parts| == 1 then parts[0]
    else parts[0] + sep + Join(parts[1..], sep)
  }

  /** Proof helper: an occurrence survives putting text in front. */
  lemma ContainsAfter(pre: string, hay: string, needle: string)
    requires Contains(hay, needle)
    ensures Contains(pre + hay, needle)
  {
    var k :| 0 <= k <= |hay| - |needle| && OccursAt(hay, needle, k);
    assert (pre + hay)[|pre| + k..|pre| + k + |needle|] == hay[k..k + |needle|];
    assert OccursAt(pre + hay, needle, |pre| + k);
  }

  /** Proof helper: an occurrence survives putting text after it. */
  lemma ContainsBefore(hay: string, tail: string, needle: string)
    requires Contains(hay, needle)
    ensures Contains(hay + tail, needle)
  {
    var k :| 0 <= k <= |hay| - |needle| && OccursAt(hay, needle, k);
    assert (hay + tail)[k..k + |needle|] == hay[k..k + |needle|];
    assert OccursAt(hay + tail, needle, k);
  }

  /** Proof helper: the middle of a concatenation occurs in it. */
  lemma ContainsMiddle(a: string, b: string, c: string)
    ensures Contains(a + b + c, b)
  {
    assert (a + b + c)[|a|..|a| + |b|] == b;
    assert OccursAt(a + b + c, b, |a|);
  }

  /** Each part occurs in the joined string. */
  lemma {:induction false} JoinContains(parts: seq<string>, sep: string, i: int)
    requires 0 <= i < |parts|
    ensures Contains(Join(parts, sep), parts[i])
  {
    var j := Join(parts, sep);
    if |parts| == 1 {
      assert OccursAt(j, parts[0], 0);
    } else if i == 0 {
      assert j[..|parts[0]|] == parts[0];
      assert OccursAt(j, parts[0], 0);
    } else {
      JoinContains(parts[1..], sep, i - 1);
      ContainsAfter(parts[0] + sep, Join(parts[1..], sep), parts[i]);
    }
  }

  /** Proof helper: each part occurs in text that ends with the joined parts. */
  lemma JoinedPartsOccur(head: string, parts: seq<string>, sep: string)
    ensures forall i :: 0 <= i < |parts| ==> Contains(head + Join(parts, sep), parts[i])
  {
    forall i | 0 <= i < |parts|
      ensures Contains(head + Join(parts, sep), parts[i])
    {
      JoinContains(parts, sep, i);
      ContainsAfter(head, Join(parts, sep), parts[i]);
    }
  }

  /* ---------------------------------------------------------------------- */
  /* Character classes                                                      */

  predicate IsDigit(c: char) { '0' <= c <= '9' }

  predicate IsUpperLetter(c: char) { 'A' <= c <= 'Z' }

  predicate IsLowerLetter(c: char) { 'a' <= c <= 'z' }

  predicate IsHexDigit(c: char) { IsDigit(c) || 'a' <= c <= 'f' || 'A' <= c <= 'F' }

  predicate AllDigits(s: string) { forall i :: 0 <= i < |s| ==> IsDigit(s[i]) }

  predicate AllUpper(s: string) { forall i :: 0 <= i < |s| ==> IsUpperLetter(s[i]) }

  predicate AllUpperAlnum(s: string)
  {
    forall i :: 0 <= i < |s| ==> IsUpperLetter(s[i]) || IsDigit(s[i])
  }

  /* ---------------------------------------------------------------------- */
  /* Decimal numerals                                                       */

  function DigitChar(d: int): char
    requires 0 <= d < 10
  {
    ('0' as int + d) as char
  }

  function DigitValue(c: char): int
    requires IsDigit(c)
  {
    c as int - '0' as int
  }

  /** The number a string of decimal digits denotes (leading zeros allowed). */
  function DigitsValue(s: string): nat
    requires AllDigits(s)
  {
    if s == [] then 0 else 10 * DigitsValue(s[..|s| - 1]) + DigitValue(s[|s| - 1])
  }

  function Pow10(k: nat): nat
  {
    if k == 0 then 1 else 10 * Pow10(k - 1)
  }

  /** `String(n)` for a non-negative integer. */
  function NatToString(n: nat): (r: string)
    ensures |r| >= 1 && AllDigits(r)
    ensures DigitsValue(r) == n
    ensures r[0] == '0' ==> r == "0"
  {
    if n < 10 then [DigitChar(n)]
    else
      var r := NatToString(n / 10) + [DigitChar(n % 10)];
      assert r[..|r| - 1] == NatToString(n / 10);
      r
  }

  /** `String(n)` for an integer. */
  function IntToString(n: int): (r: string)
    ensures n >= 0 ==> AllDigits(r) && DigitsValue(r) == n
    ensures n < 0 ==> |r| >= 2 && r[0] == '-' && AllDigits(r[1..]) && DigitsValue(r[1..]) == -n
    ensures n >= 0 ==> |r| >= 1 && (r[0] == '0' ==> r == "0")
    ensures n < 0 ==> r[1] != '0'
  {
    if n < 0 then
      var d := NatToString(-n);
      assert ("-" + d)[1..] == d;
      "-" + d
    else NatToString(n)
  }

  lemma {:induction false} NatToStringLength(n: nat, k: nat)
    requires 1 <= k && n < Pow10(k)
    ensures |NatToString(n)| <= k
  {
    if n >= 10 {
      assert k >= 2;
      assert n / 10 < Pow10(k - 1);
      NatToStringLength(n / 10, k - 1);
    }
  }

  function Repeat(c: char, n: nat): (r: string)
    ensures |r| == n && forall i :: 0 <= i < n ==> r[i] == c
  {
    seq(n, _ => c)
  }

  /** `s.padStart(width, c)` for a one-character fill. */
  function PadStart(s: string, width: nat, c: char): (r: string)
    ensures |r| == if |s| >= width then |s| else width
    ensures r == Repeat(c, |r| - |s|) + s
  {
    if |s| >= width then (assert Repeat(c, 0) + s == s; s) else Repeat(c, width - |s|) + s
  }

  /** Counting from the end, a padded string shows `s` and then the fill. */
  lemma PadStartFromEnd(s: string, width: nat, c: char, k: int)
    requires 1 <= k <= |PadStart(s, width, c)|
    ensures PadStart(s, width, c)[|PadStart(s, width, c)| - k] == if k <= |s| then s[|s| - k] else c
  {
    var r := PadStart(s, width, c);
    assert r == Repeat(c, |r| - |s|) + s;
  }

  /** Leading zeros do not change the value of a numeral. */
  lemma {:induction false} LeadingZeros(k: nat, s: string)
    requires AllDigits(s)
    ensures AllDigits(Repeat('0', k) + s)
    ensures DigitsValue(Repeat('0', k) + s) == DigitsValue(s)
    decreases |s|, k
  {
    var z := Repeat('0', k);
    if s == [] {
      assert z + s == z;
      if k > 0 {
        assert z[..k - 1] == Repeat('0', k - 1) + [];
        LeadingZeros(k - 1, []);
      }
    } else {
      var s' := s[..|s| - 1];
      assert (z + s)[..|z + s| - 1] == z + s';
      LeadingZeros(k, s');
    }
  }
}

=== FILE: validators.dfy ===
/**
 Field validators: coordinate ranges, the measurement-unit allow-list, the
 generic rule evaluator and the data-entry auto-corrector.
 */
module Validators {
  import opened SpecimenTypes
  import opened Strings

  /** `{ valid: true }` or `{ valid: false, message }`. */
  datatype Verdict = Valid | Invalid(message: string)

  /* ---------------------------------------------------------------------- */
  /* Coordinates                                                            */

  const LatitudeMessage := "Latitude must be between -90 and 90"
  const LongitudeMessage := "Longitude must be between -180 and 180"

  predicate LatitudeInRange(lat: real) { -90.0 <= lat <= 90.0 }

  predicate LongitudeInRange(lon: real) { -180.0 <= lon <= 180.0 }

  /** An absent coordinate never fails; a present one must be in range. */
  predicate Acceptable(c: Option<real>, inRange: real -> bool)
  {
    c.None? || inRange(c.value)
  }

  /**
   `validateCoordinates(lat?, lon?)`: valid exactly when each present
   coordinate is within its inclusive bounds; latitude is checked first, so
   its message wins when both are out of range.
   */
  function ValidateCoordinates(lat: Option<real>, lon: Option<real>): (r: Verdict)
    ensures r.Valid? <==> Acceptable(lat, LatitudeInRange) && Acceptable(lon, LongitudeInRange)
    ensures r == Invalid(LatitudeMessage) <==> !Acceptable(lat, LatitudeInRange)
    ensures r == Invalid(LongitudeMessage)
        <==> Acceptable(lat, LatitudeInRange) && !Acceptable(lon, LongitudeInRange)
  {
    if lat.Some? && (lat.value < -90.0 || lat.value > 90.0) then Invalid(LatitudeMessage)
    else if lon.Some? && (lon.value < -180.0 || lon.value > 180.0) then Invalid(LongitudeMessage)
    else Valid
  }

  lemma AbsentCoordinatesValid()
    ensures ValidateCoordinates(None, None) == Valid
  {
  }

  /* ---------------------------------------------------------------------- */
  /* Units                                                                  */

  const ValidUnits: seq<string> := ["m", "cm", "mm", "km", "ft", "in", "kg", "g", "lb"]

  const NegativeMessage := "Measurement cannot be negative"

  function UnitMessage(unit: string): string
  {
    "Invalid unit: " + unit + ". Valid units: " + Join(ValidUnits, ", ")
  }

  /**
   `validateUnits(value, unit)`: the unit is checked against the allow-list
   before the sign of the value.
   */
  function ValidateUnits(value: real, unit: string): (r: Verdict)
    ensures unit !in ValidUnits ==> r.Invalid? && r.message == UnitMessage(unit)
    ensures unit in ValidUnits ==> (r.Valid? <==> value >= 0.0)
    ensures unit in ValidUnits && value < 0.0 ==> r == Invalid(NegativeMessage)
  {
    if unit !in ValidUnits then Invalid(UnitMessage(unit))
    else if value < 0.0 then Invalid(NegativeMessage)
    else Valid
  }

  /** The unit message names the rejected unit and every allowed one. */
  lemma UnitMessageMentionsUnits(unit: string)
    ensures Contains(UnitMessage(unit), unit)
    ensures forall i :: 0 <= i < |ValidUnits| ==> Contains(UnitMessage(unit), ValidUnits[i])
  {
    ContainsMiddle("Invalid unit: ", unit, ". Valid units: ");
    ContainsBefore("Invalid unit: " + unit + ". Valid units: ", Join(ValidUnits, ", "), unit);
    JoinedPartsOccur("Invalid unit: " + unit + ". Valid units: ", ValidUnits, ", ");
  }

  /* ---------------------------------------------------------------------- */
  /* Generic rules                                                          */

  /** `undefined`, `null` or the empty string: what a required rule rejects. */
  predicate IsMissing(v: Value)
  {
    v.Undefined? || v.Null? || (v.Str? && v.s == "")
  }

  /** The messages one rule pushes for `value`; a range rule can push twice. */
  function RuleErrors(value: Value, rule: ValidationRule): (errs: seq<string>)
    ensures |errs| <= 2
    ensures forall i :: 0 <= i < |errs| ==> errs[i] == rule.message
    ensures rule.kind == Required ==> (errs != [] <==> IsMissing(value))
    ensures rule.kind == Range ==>
      |errs| == (if value.Num? && rule.min.Some? && value.x < rule.min.value then 1 else 0)
              + (if value.Num? && rule.max.Some? && value.x > rule.max.value then 1 else 0)
    ensures rule.kind == Pattern ==>
      (errs != [] <==> rule.pattern.Some? && value.Str? && !rule.pattern.value(value.s))
    ensures rule.kind == Custom ==>
      (errs != [] <==> rule.validator.Some? && !rule.validator.value(value))
  {
    match rule.kind
    case Required =>
      if IsMissing(value) then [rule.message] else []
    case Range =>
      // `typeof value === 'number'`; a NaN fails neither comparison
      if value.Num? then
        (if rule.min.Some? && value.x < rule.min.value then [rule.message] else [])
        + (if rule.max.Some? && value.x > rule.max.value then [rule.message] else [])
      else []
    case Pattern =>
      if rule.pattern.Some? && value.Str? && !rule.pattern.value(value.s) then [rule.message] else []
    case Custom =>
      if rule.validator.Some? && !rule.validator.value(value) then [rule.message] else []
  }

  /** Every rule's messages, in rule order. */
  function AllErrors(value: Value, rules: seq<ValidationRule>): seq<string>
  {
    if rules == [] then []
    else AllErrors(value, rules[..|rules| - 1]) + RuleErrors(value, rules[|rules| - 1])
  }

  datatype FieldResult = FieldResult(valid: bool, errors: seq<string>)

  /** `validateField(value, rules)`: evaluates every rule and collects every failure. */
  method ValidateField(value: Value, rules: seq<ValidationRule>) returns (r: FieldResult)
    ensures r.errors == AllErrors(value, rules)
    ensures r.valid <==> r.errors == []
    ensures r.valid <==> forall i :: 0 <= i < |rules| ==> RuleErrors(value, rules[i]) == []
  {
    var errors: seq<string> := [];
    var i := 0;
    while i < |rules|
      invariant 0 <= i <= |rules|
      invariant errors == AllErrors(value, rules[..i])
    {
      assert rules[..i + 1][..i] == rules[..i];
      errors := errors + RuleErrors(value, rules[i]);
      i := i + 1;
    }
    assert rules[..|rules|] == rules;
    NoErrorsIffEveryRulePasses(value, rules);
    r := FieldResult(errors == [], errors);
  }

  /** The evaluator does not short-circuit: the rules' messages concatenate. */
  lemma {:induction false} AllErrorsAppend(value: Value, a: seq<ValidationRule>, b: seq<ValidationRule>)
    ensures AllErrors(value, a + b) == AllErrors(value, a) + AllErrors(value, b)
    decreases |b|
  {
    if b == [] {
      assert a + b == a;
    } else {
      var b' := b[..|b| - 1];
      assert (a + b)[..|a + b| - 1] == a + b';
      assert (a + b)[|a + b| - 1] == b[|b| - 1];
      AllErrorsAppend(value, a, b');
    }
  }

  lemma {:induction false} NoErrorsIffEveryRulePasses(value: Value, rules: seq<ValidationRule>)
    ensures AllErrors(value, rules) == [] <==> forall i :: 0 <= i < |rules| ==> RuleErrors(value, rules[i]) == []
  {
    if rules != [] {
      var front := rules[..|rules| - 1];
      NoErrorsIffEveryRulePasses(value, front);
      assert forall i :: 0 <= i < |front| ==> front[i] == rules[i];
    }
  }

  /** At most two messages per rule, each one a rule's message. */
  lemma {:induction false} AllErrorsBounded(value: Value, rules: seq<ValidationRule>)
    ensures |AllErrors(value, rules)| <= 2 * |rules|
    ensures forall e :: e in AllErrors(value, rules) ==> exists i :: 0 <= i < |rules| && rules[i].message == e
  {
    if rules != [] {
      var front := rules[..|rules| - 1];
      AllErrorsBounded(value, front);
      forall e | e in AllErrors(value, rules)
        ensures exists i :: 0 <= i < |rules| && rules[i].message == e
      {
        if e in AllErrors(value, front) {
          var i :| 0 <= i < |front| && front[i].message == e;
          assert rules[i] == front[i];
        } else {
          assert rules[|rules| - 1].message == e;
        }
      }
    }
  }

  /** Range rules say nothing about a value that is not a number. */
  lemma {:induction false} RangeIgnoresNonNumbers(value: Value, rules: seq<ValidationRule>)
    requires !value.Num?
    requires forall i :: 0 <= i < |rules| ==> rules[i].kind == Range
    ensures AllErrors(value, rules) == []
  {
    if rules != [] {
      RangeIgnoresNonNumbers(value, rules[..|rules| - 1]);
    }
  }

  /** Pattern rules say nothing about a value that is not a string. */
  lemma {:induction false} PatternIgnoresNonStrings(value: Value, rules: seq<ValidationRule>)
    requires !value.Str?
    requires forall i :: 0 <= i < |rules| ==> rules[i].kind == Pattern
    ensures AllErrors(value, rules) == []
  {
    if rules != [] {
      PatternIgnoresNonStrings(value, rules[..|rules| - 1]);
    }
  }

  /** A required rule contributes its message exactly on undefined, null or "". */
  lemma RequiredRuleFailsOnMissing(value: Value, rule: ValidationRule)
    requires rule.kind == Required
    ensures AllErrors(value, [rule]) == (if IsMissing(value) then [rule.message] else [])
  {
    assert [rule][..0] == [];
  }

  /* ---------------------------------------------------------------------- */
  /* Auto-correction                                                        */

  /** The first pass: string values are trimmed, others kept. */
  function TrimValue(v: Value): Value
  {
    if v.Str? then Str(Trim(v.s)) else v
  }

  /** `String(v)` for the values whose rendering the model knows; numbers are handled apart. */
  function Render(v: Value): string
    requires !v.Num?
  {
    match v
    case Undefined => "undefined"
    case Null => "null"
    case Bool(b) => if b then "true" else "false"
    case NaN => "NaN"
    case Str(s) => s
    case Other(t) => t
  }

  /**
   `parseFloat(String(v).replace(',', '.'))` with `parse` standing for
   `parseFloat` (`None` is NaN). A number renders and re-parses to itself.
   */
  function Recoordinate(v: Value, parse: string -> Option<real>): (r: Value)
    ensures r.Num? || r.NaN?
    ensures v.Num? ==> r == v
    ensures !v.Num? ==> (r.Num? <==> parse(ReplaceFirst(Render(v), ',', '.')).Some?)
    ensures !v.Num? && r.Num? ==> parse(ReplaceFirst(Render(v), ',', '.')) == Some(r.x)
  {
    if v.Num? then v
    else
      match parse(ReplaceFirst(Render(v), ',', '.'))
      case Some(x) => Num(x)
      case None => NaN
  }

  function CorrectCoordinate(v: Value, parse: string -> Option<real>): Value
  {
    var t := TrimValue(v);
    if Truthy(t) then Recoordinate(t, parse) else t
  }

  predicate IsCoordinateKey(k: string) { k == "latitude" || k == "longitude" }

  /**
   `autoCorrectData(data)`: trims every string value, then re-parses a truthy
   latitude or longitude with its first decimal comma made a point.
   */
  function AutoCorrectData(data: map<string, Value>, parse: string -> Option<real>): (r: map<string, Value>)
    ensures r.Keys == data.Keys
    ensures forall k :: k in data && !IsCoordinateKey(k) && data[k].Str? ==> r[k] == Str(Trim(data[k].s))
    ensures forall k :: k in data && !IsCoordinateKey(k) && !data[k].Str? ==> r[k] == data[k]
    ensures forall k :: k in data && IsCoordinateKey(k) && !Truthy(TrimValue(data[k])) ==> r[k] == TrimValue(data[k])
    ensures forall k :: k in data && IsCoordinateKey(k) && Truthy(TrimValue(data[k])) ==> r[k].Num? || r[k].NaN?
    ensures forall k :: k in data && IsCoordinateKey(k) && data[k].Num? && data[k].x != 0.0 ==> r[k] == data[k]
    ensures forall k :: k in data && IsCoordinateKey(k) && data[k].Str? && Trim(data[k].s) != "" ==>
      && (r[k].Num? <==> parse(ReplaceFirst(Trim(data[k].s), ',', '.')).Some?)
      && (r[k].Num? ==> parse(ReplaceFirst(Trim(data[k].s), ',', '.')) == Some(r[k].x))
    ensures forall k :: k in data && IsCoordinateKey(k) && !data[k].Num? && !data[k].Str? && Truthy(data[k]) ==>
      && (r[k].Num? <==> parse(ReplaceFirst(Render(data[k]), ',', '.')).Some?)
      && (r[k].Num? ==> parse(ReplaceFirst(Render(data[k]), ',', '.')) == Some(r[k].x))
  {
    map k | k in data :: if IsCoordinateKey(k) then CorrectCoordinate(data[k], parse) else TrimValue(data[k])
  }

  /** Correcting corrected data changes nothing. */
  lemma AutoCorrectIdempotent(data: map<string, Value>, parse: string -> Option<real>)
    ensures AutoCorrectData(AutoCorrectData(data, parse), parse) == AutoCorrectData(data, parse)
  {
    var once := AutoCorrectData(data, parse);
    var twice := AutoCorrectData(once, parse);
    forall k | k in once
      ensures twice[k] == once[k]
    {
      if once[k].Str? {
        TrimIdempotent(data[k].s);
      }
    }
  }

  /** Proof helper: the start-trimming steps of the worked example. */
  lemma TrimStartExamples()
    ensures TrimStart("40,71") == "40,71"
    ensures TrimStart("  J. Doe  ") == "J. Doe  "
  {
    TrimStartStops('4', ",71");
    TrimStartStops('J', ". Doe  ");
    TrimStartSkips(' ', "J. Doe  ");
    TrimStartSkips(' ', " J. Doe  ");
  }

  /** Proof helper: the end-trimming steps of the worked example. */
  lemma TrimEndExamples()
    ensures TrimEnd("40,71") == "40,71"
    ensures TrimEnd("J. Doe  ") == "J. Doe"
  {
    assert !IsWhitespace('1') && !IsWhitespace('e');
    assert "J. Doe  "[..7] == "J. Doe ";
    assert "J. Doe "[..6] == "J. Doe";
  }

  /** Proof helper: both values of the worked example, trimmed. */
  lemma TrimExamples()
    ensures Trim("40,71") == "40,71"
    ensures Trim("  J. Doe  ") == "J. Doe"
  {
    TrimStartExamples();
    TrimEndExamples();
  }

  /** Proof helper: the comma-to-point step of the worked example. */
  lemma ReplaceExample()
    ensures ReplaceFirst("40,71", ',', '.') == "40.71"
  {
    assert ReplaceFirst(",71", ',', '.') == ".71";
    assert ReplaceFirst("0,71", ',', '.') == "0.71";
  }

  /** Proof helper: the re-parse step of the latitude example; the comma becomes a point before `parse`. */
  lemma RecoordinateExample(parse: string -> Option<real>)
    requires parse("40.71") == Some(40.71)
    ensures Recoordinate(Str("40,71"), parse) == Num(40.71)
  {
    ReplaceExample();
  }

  /** Proof helper: the trim step of the latitude example; there is no padding to remove. */
  lemma LatitudeTrimExample()
    ensures TrimValue(Str("40,71")) == Str("40,71")
  {
    TrimExamples();
  }

  /** Proof helper: the latitude half of the worked example below. */
  lemma CoordinateExample(parse: string -> Option<real>)
    requires parse("40.71") == Some(40.71)
    ensures CorrectCoordinate(Str("40,71"), parse) == Num(40.71)
  {
    LatitudeTrimExample();
    RecoordinateExample(parse);
  }

  /** Proof helper: the collector half of the worked example below. */
  lemma CollectorExample()
    ensures TrimValue(Str("  J. Doe  ")) == Str("J. Doe")
  {
    TrimExamples();
  }

  /** Proof helper: the collector is not one of the two re-parsed keys. */
  lemma KeyExample()
    ensures !IsCoordinateKey("collectedBy")
  {
    assert "collectedBy"[0] != "longitude"[0];
    assert "collectedBy"[0] != "latitude"[0];
  }

  /**
   The worked example `{latitude: "40,71", collectedBy: "  J. Doe  "}`, value by
   value: the latitude becomes 40.71 and the collector is trimmed.
   */
  lemma AutoCorrectExample(parse: string -> Option<real>)
    requires parse("40.71") == Some(40.71)
    ensures CorrectCoordinate(Str("40,71"), parse) == Num(40.71)
    ensures TrimValue(Str("  J. Doe  ")) == Str("J. Doe")
    ensures !IsCoordinateKey("collectedBy")
  {
    CoordinateExample(parse);
    CollectorExample();
    KeyExample();
  }
}
